=== FILE: README.md ===
# Compliance analysis engine of the YouTube compliance checker, in Dafny

This project models the analysis engine in `checker.py`. The engine flags sensitive
language in a video's title, description, tags and transcript, grouped by compliance
category. It also decides which video frames to sample and which image-classifier
predictions raise a weapon alert. Everything is written as pure Dafny functions over
`seq`, plus one method for the frame-sampling loop.

The modules follow the source's structure:

- `Catalog` (`catalog.dfy`) holds the two tables, transcribed entry by entry and in
  source order.
  - `ComplianceRules` holds the 4 categories with their subcategories and keywords
    (checker.py:29-81).
  - `KeywordVariations` holds the 71 canonical forms with their spelling variants
    (checker.py:84-156).
  - Python dictionaries iterate in insertion order, and that order decides the results,
    so both tables are ordered sequences.
- `Strings` models the Python string operations the engine relies on:
  - substring membership `in`;
  - `str.find` for a single character;
  - `str.replace`, which scans left to right and does not overlap matches, including the
    empty-pattern case;
  - ASCII `str.lower`;
  - `sep.join`.
- `Normalizer` is `normalize_text`. It lower-cases the text, then walks the variant table
  in order, replacing every form of each entry by the entry's lower-cased canonical form.
- `NormalizeOrder` works through examples on entries of the source's table. They show
  that the table's order decides the normal form and that normalising twice can differ
  from normalising once. Each example is split into single rewriting steps.
- `Matcher` holds two parts.
  - `check_inappropriate_content` emits one issue line
    `・{sub}: '{kw}'を含む表現があります` per hitting keyword. A category's header
    `\n【{cat}】` comes first, and only if that category has a hit.
  - `analyze_video_content` checks the title, the description and the space-joined tags.
- `Issues` is `get_keywords_from_issue`: the text between the first two `'` of a report line.
- `Transcript` builds the segments of a captioned transcript. Each segment gets an
  `m:ss` timestamp, and the transcript text is the segment texts joined by spaces. A
  speech-recognition transcript has no segments.
- `Localizer` is `analyze_text_content`. Each issue line is followed by every transcript
  segment whose normalised, lower-cased text contains the term extracted from that line.
- `Frames` covers two parts of `analyze_video_frames`.
  - The sampling loop takes every `5 * fps`-th frame, at time `frame_count // fps`.
  - The alert filter examines the classifier's top five predictions. A prediction alerts
    when its confidence is strictly above 0.2 and its class name contains `weapon` or `gun`.
- `Sequences` holds the order-preserving `Filter` that both the localisation loop and the
  alert filter use. `Wrappers` holds `Option` and `Result`.

Most statements are made over arbitrary tables (the `...With` functions). The concrete
`ComplianceRules` and `KeywordVariations` are then shown to satisfy the hypotheses those
statements need:

- every form and every keyword is non-empty;
- no name or keyword contains a quote character.

Two behaviours of `checker.py` are worth stating on their own.

- Normalisation (checker.py:158-164) is not idempotent, as
  `NormalizeOrder.NormalizeNotIdempotent` shows on the table's きもい and イスラム教徒
  entries, taken in table order.
  - キモムスリム normalises to キモイスラム教徒, because ムスリム is rewritten.
  - Normalising again gives きもいスラム教徒, because the rewrite created the variant キモイ
    of an earlier entry.
- The sampling loop (checker.py:361-377) keeps `ceil(N / (5*fps))` frames out of `N`
  read frames, for a positive frame rate. When at least one frame is read, frame 0 is
  kept, and so is every later multiple of the rate below `N`. A stream shorter than five
  seconds from which at least one frame is read therefore yields exactly one frame. With
  no frame read, nothing is kept. With a frame rate of 0 the loop fails at its first
  frame: the source takes the frame index modulo a sampling rate of 0.

## Model

| member | source | states |
|---|---|---|
| Strings.ContainsIff | checker.py:185 | Python's `p in s` holds exactly when `p` occurs at some offset of `s`, in both directions |
| Strings.Find | checker.py:330-331 | `find` returns -1 or an index at or after `start` holding the character, and no earlier index from `start` holds it |
| Strings.ReplaceAll | checker.py:163 | `replace` leaves text without the (non-empty) pattern unchanged. Replacing a pattern by itself is the identity. It introduces no upper-case letter, and it never empties a non-empty text when the pattern and the replacement are non-empty |
| Strings.ReplaceFirstOccurrence | checker.py:163 | `replace` keeps the text before the first occurrence of the pattern, puts the replacement in its place, and resumes the scan right after it |
| Strings.ReplaceInserts | checker.py:163 | whenever the (non-empty) pattern occurs in the text, the replacement occurs in the result |
| Strings.ReplaceKeeps | checker.py:163 | a replacement text already present is still present after replacing any non-empty pattern by it |
| Strings.Lower | checker.py:160 | `lower()` keeps the length, maps each character to its lower case, and leaves no upper-case letter |
| Strings.LowerFixpoint | checker.py:160 | lower-casing is the identity exactly on texts without upper-case letters |
| Strings.SplitJoin | checker.py:260 | splitting a space-join on the separator gives back the parts, when no part contains it |
| Normalizer.ApplyForms | checker.py:162-163 | the inner loop keeps the text free of upper-case letters, leaves it unchanged when none of the entry's forms occurs, and keeps a non-empty text non-empty |
| Normalizer.FormsInsertTarget | checker.py:162-163 | with non-empty forms, if any lower-cased form occurs in the text, the target is in the inner loop's result; an earlier form that destroyed the occurrence wrote the target itself |
| Normalizer.FormsKeepTarget | checker.py:162-163 | once the target is in the text, rewriting further non-empty forms to it keeps it there |
| Normalizer.EntryInsertsCanonical | checker.py:160-163 | one entry with non-empty forms, one of which occurs, leaves its lower-cased canonical form in the text. This is per entry only: a later entry of the table may rewrite it again |
| Normalizer.ApplyTable | checker.py:161-164 | the outer loop keeps the text free of upper-case letters, and leaves text holding no form of any entry exactly as it is |
| Normalizer.NormalizeWith | checker.py:158-164 | a normalised text has no upper-case letter; a text holding no form of the table is only lower-cased; non-empty stays non-empty |
| Normalizer.ApplyTableSplit | checker.py:161-163 | running the table in two pieces equals running it whole: entries are applied strictly one after the other |
| Normalizer.KeywordVariationsWellFormed | checker.py:84-156 | no canonical form and no variant of the source's table is empty |
| Normalizer.NormalizeEmpty | checker.py:158-164 | the empty text normalises to the empty text |
| NormalizeOrder.EntryRewrites | checker.py:162-163 | an entry whose first variant rewrites the text, and whose other variants then find nothing, yields that rewrite |
| NormalizeOrder.EntryIdle2 | checker.py:162-163 | an entry none of whose forms occurs leaves the text alone |
| NormalizeOrder.TwoEntries | checker.py:158-164 | a two-entry table rewrites with the first entry, then with the second |
| NormalizeOrder.TableEntries | checker.py:84-156 | the table holds きもい, 気違い, 基地外, イスラム教徒, 最高 and 最高級 at positions 4, 8, 9, 18, 28 and 32 |
| NormalizeOrder.SaikouSourceOrder | checker.py:161-163 | with 最高 before 最高級, as in the table, さいこうきゅう normalises to 最高きゅう |
| NormalizeOrder.SaikouReversedOrder | checker.py:161-163 | with the two entries swapped the same text gives 最高級, so the table's order decides the result |
| NormalizeOrder.KichigaiFirstEntryWins | checker.py:161-163 | きちがい, a variant of both 気違い and 基地外, becomes 気違い: the earlier entry wins |
| NormalizeOrder.NormalizeNotIdempotent | checker.py:158-164 | normalising キモムスリム twice differs from normalising it once |
| Matcher.KeywordLinesSpec | checker.py:184-186 | a subcategory's lines are exactly the issue lines of its hitting keywords, one per hit |
| Matcher.SubcategoryLinesSpec | checker.py:183-186 | a category's hit lines are exactly the issue lines of hitting keywords of its subcategories, one per hit |
| Matcher.CategoryLinesSpec | checker.py:181-190 | a category contributes lines if and only if it has a hit, and then its header comes first, followed by its hit lines |
| Matcher.CategoryBlocksLength | checker.py:175-192 | the report has one line per hitting catalogue keyword plus one header per category with a hit |
| Matcher.CategoryBlocksContents | checker.py:175-192 | a line is in the report if and only if it is the issue line of a hitting catalogue keyword or the header of a category with a hit |
| Matcher.KeywordSelfMatch | checker.py:178-186 | every catalogue keyword, checked on its own, reports its own issue line and its category's header |
| Matcher.ComplianceRulesNonEmpty | checker.py:29-81 | no keyword of the catalogue is empty |
| Matcher.CheckEmpty | checker.py:175-192 | checking the empty text reports nothing |
| Matcher.NoHitOnEmpty | checker.py:185 | no non-empty keyword hits the empty text |
| Matcher.AnalyzeVideoContentWith | checker.py:194-200 | title and description are checked as they are. The tags are checked as one text, joined with single spaces, a missing list counting as empty. A missing or empty tag list gives an empty tag report. A single tag is checked exactly like that tag alone |
| Matcher.NoTagsNoReport | checker.py:199 | the space-join of no tags is the empty text and reports nothing |
| Matcher.AnalyzeVideoContent | checker.py:194-200 | with the source's tables, a video without tags has an empty tag report |
| Issues.KeywordsFromIssue | checker.py:328-334 | the result is empty exactly when the line has fewer than two quotes; otherwise it is the single text strictly between the first two quotes |
| Issues.QuoteCount | checker.py:330-332 | the second `find` succeeds exactly when there are at least two quotes, and then the two searches locate the first two |
| Issues.IssueRoundTrip | checker.py:328-334 | the term extracted from the issue line of a quote-free keyword is that keyword |
| Issues.HeaderHasNoKeyword | checker.py:328-334 | a category header of a quote-free name yields no term |
| Issues.ComplianceRulesQuoteFree | checker.py:29-81 | no category name, subcategory name or keyword of the catalogue contains a quote |
| Issues.ReportLineKeywords | checker.py:328-334 | every report line over a quote-free catalogue yields either the hitting keyword it names or, for a header, nothing |
| Sequences.Filter | checker.py:317-320 | the kept elements are exactly the elements satisfying the test, as a subsequence in their original order, as many as satisfy it |
| Transcript.DecimalString | checker.py:255 | `str(n)` is a non-empty digit string; it starts with 0 only when it is exactly `0`, which is what 0 gives |
| Transcript.DecimalRoundTrip | checker.py:255 | reading a decimal string back gives the number |
| Transcript.FormatTime | checker.py:251-255 | a timestamp is minutes, a colon and two digits worth less than 60; the minutes read exactly `0` if and only if the start is under a minute |
| Transcript.TimeRoundTrip | checker.py:251-255 | a timestamp parses back to the start second it was made from |
| Transcript.SixtyFiveSeconds | checker.py:251-255 | second 65 is formatted as 1:05 |
| Transcript.BuildSegments | checker.py:249-257 | one segment per caption entry, in order, keeping its text and start. Its timestamp is the `M:SS` form of the start and parses back to the start |
| Transcript.SegmentTexts | checker.py:249-260 | the segments keep the caption texts, in order |
| Transcript.CaptionTranscript | checker.py:259-263 | a captioned transcript has segments, one per entry. Its text is the caption texts joined with single spaces, and it splits back on spaces into those texts when they contain no space |
| Localizer.LocateIssue | checker.py:317-320 | the segments listed under an issue are exactly the matching ones, in transcript order, as many as match (repeats kept); a line without a term lists none |
| Localizer.NothingMatchesNoTerm | checker.py:319 | `any` over no terms is false, so no segment matches |
| Localizer.Entries | checker.py:313-324 | one entry per issue, in order, located in the segments when there are segments and nowhere otherwise |
| Localizer.AnalyzeTextContentWith | checker.py:300-326 | no transcript gives no report. A transcript is all clear for its source if and only if its normalised text raises no issue. Otherwise entry `i` carries issue line `i`, one entry per issue, unlocated when the transcript has no segments |
| Localizer.AnalyzeTextContent | checker.py:300-303 | with the source's tables, there is no report exactly when there is no transcript |
| Localizer.KeywordLocations | checker.py:317-320 | an issue line whose term is `k` is listed at exactly the segments whose normalised, lower-cased text contains `k` |
| Localizer.LineLocations | checker.py:313-320 | over a quote-free catalogue, a header is located nowhere, and an issue line exactly at the segments containing its raw keyword |
| Localizer.FlaggedLocations | checker.py:313-320 | every entry of a flagged report is one of the issues of the normalised text, located by its own line |
| Localizer.ReportLines | checker.py:313-320 | a timed report has at least one line per entry. It opens with the first issue, followed directly by that issue's location lines |
| Localizer.ReportLayout | checker.py:313-320 | the timed report is the entries' blocks end to end and nothing else. Block i starts at `Offset(entries, i)`, the length of the report of the entries before it. It holds issue i, then exactly issue i's location lines, and block i+1 starts right after. The first block starts at line 0 and the last one ends the report |
| Localizer.ReportAppend | checker.py:313-320 | the report of two runs of entries is the report of the first run, then that of the second |
| Localizer.ReportListsIssues | checker.py:313-315 | every issue appears in the timed report |
| Localizer.LocationLines | checker.py:317-320 | one line per listed segment, in order: line i is `→` followed by segment i's time, then its text in 「」 brackets |
| Localizer.UntimedLines | checker.py:321-324 | entries without locations are written as their bare issue lines |
| Localizer.SpeechReportUntimed | checker.py:321-324 | a speech-recognition transcript is reported as exactly the issue lines, with no timestamps |
| Frames.SampleFrames | checker.py:361-376 | apart from the progress bar, the loop fails exactly when the frame rate is 0 and a frame is read (the modulo by a zero rate). Otherwise frame `i` is stream frame `5*fps*i` at `5*i` seconds (equal to `frame_count // fps`). There are ceil(N / (5*fps)) frames, all below N, and every multiple of the rate below N is sampled |
| Frames.SampleStep | checker.py:368-375 | one pass of the loop keeps the samples exactly the multiples of the rate read so far, each at its own time |
| Frames.SamplingDone | checker.py:361-376 | when the loop ends, the samples cover every multiple of the rate below N, and each is stamped `index // fps` |
| Frames.CeilDivStep | checker.py:370-376 | reading one more frame adds a sample exactly when that frame is a multiple of the rate |
| Frames.SampledMultiples | checker.py:361-376 | samples at positions `rate*i`, ceil(N / rate) of them, cover every multiple of the rate below N and nothing at or beyond N |
| Frames.TimesIncrease | checker.py:370-374 | sampled times strictly increase, five seconds per sample |
| Frames.Top | checker.py:400 | the examined predictions are the first five of the ranking, or all of them when there are fewer |
| Frames.Alerts | checker.py:400-405 | the alerts are exactly those of the top five passing the test, in ranking order, each as often as it passes, several per frame possible, at most five |
| Frames.ThresholdIsStrict | checker.py:403 | a confidence of exactly 0.2 raises no alert |
| Frames.KeywordsAlert | checker.py:403-404 | above the threshold, any class name containing `gun` or `weapon` alerts |

## Left out

- The user interface is not modelled, because it only renders results. This covers
  Streamlit calls, `display_analysis_results`, `display_frame_results`, the frame slider,
  the progress bar and the alert message formatting (`{confidence*100:.1f}%`).
- The network collaborators are not modelled; they are outside the engine. This covers
  the YouTube Data API client, the caption service, `extract_video_id`, downloads with
  `pytube`/`yt_dlp`, and the Whisper model.
- The fallback from captions to speech recognition and its exception handling are not
  modelled as control flow. A transcript is given as `Option<TranscriptResult>`, built by
  `CaptionTranscript` or `SpeechTranscript`, and `None` is the failure.
- Frame decoding, `cv2` and the ResNet50 classifier are left out. `SampleFrames` takes the
  number of readable frames and the integer frame rate. `Alerts` takes the ranked
  predictions as the classifier returns them.
- Frames.SampleFrames: the progress bar at checker.py:377 is not modelled, nor is
  `total_frames` (checker.py:353), which only it uses. So the model has neither of the two
  failures it can cause: the division by zero when the decoder reports 0 frames, and the
  error Streamlit raises for a progress value above 1.0, when more frames are read than
  the decoder reported. Either would end the analysis through the outer `except`.
- Transcript.BuildSegments: a caption's `start` is a float in the source. The model keeps
  only its whole seconds (`int(entry['start'])`), so the segment's `start` field is the
  truncated value rather than the original float.
- Frames.Alerts: the confidence is a real number, not a 32-bit float. The threshold
  comparison is exact.
- Frames.Alerts: the source classifies only the one frame picked with the slider
  (checker.py:384-400), not every sampled frame. The model states the alert test on one
  frame's ranked predictions; the slider and the choice of frame are not modelled.
- Strings.Lower: lower-casing is ASCII only. Python's `str.lower` also folds non-ASCII
  letters (for example full-width Latin letters). No form in the tables depends on that,
  but a text containing such letters is treated differently.
- Matcher.AnalyzeVideoContent: with the source's tables, only the empty-tags property is
  stated. The general properties are stated and proved for `AnalyzeVideoContentWith`,
  which it instantiates.
- Localizer.AnalyzeTextContent: with the source's tables, only the absent-transcript case
  is stated. The general properties are stated and proved for `AnalyzeTextContentWith`,
  which it instantiates.
- NormalizeOrder.SaikouSourceOrder: proved on the two-entry table of 最高 and 最高級, in
  table order, not on the full 71-entry table. On the full table it also needs every other
  entry to leave さいこうきゅう and 最高きゅう alone, which is not proved.
- NormalizeOrder.SaikouReversedOrder: a two-entry table by design, since the full table
  holds the two entries only in source order.
- NormalizeOrder.KichigaiFirstEntryWins: proved on the two-entry table of 気違い and 基地外
  only. On the full table it also needs every other entry to leave きちがい and 気違い
  alone, which is not proved.
- NormalizeOrder.NormalizeNotIdempotent: proved on the two-entry table of きもい and
  イスラム教徒, in table order, not on the full table. On the full table it also needs
  every other entry to leave キモムスリム, キモイスラム教徒 and きもいスラム教徒 alone, which is
  not proved.

=== FILE: catalog.dfy ===
/** The two static tables of the engine, kept as ordered sequences because the engine's
    behaviour depends on their iteration order: the compliance catalogue
    (category, then subcategory, then keyword; checker.py:29-81) and the table of
    spelling variants (checker.py:84-156). */
module Catalog {

  /** A subcategory and its keywords, in catalogue order. */
  datatype Subcategory = Subcategory(name: string, keywords: seq<string>)

  /** A top-level compliance category and its subcategories, in catalogue order. */
  datatype Category = Category(name: string, subcategories: seq<Subcategory>)

  /** A canonical keyword and its registered surface variants. */
  datatype Variation = Variation(canonical: string, variants: seq<string>)

  /** The catalogue of flagged keywords (checker.py:29-81), one constant per category. */
  const ComplianceRules: seq<Category> := [EthicsCategory, LegalCategory, RightsCategory, SecretsCategory]

  const EthicsCategory: Category :=
    Category("一般倫理基準", [
      Subcategory("差別的表現", [
        "差別", "侮蔑", "馬鹿", "バカ", "アホ", "死ね",
        "きもい", "在日", "黒人", "白人", "ホモ", "レズ",
        "障害者", "病人", "バ度", "知恵遅れ", "気違い", "基地外"]),
      Subcategory("性別差別", [
        "女のくせに", "男のくせに", "女だから", "男だから", "女の分際", "男の分際",
        "女らしく", "男らしく"]),
      Subcategory("宗教関連", [
        "仏教徒", "キリスト教徒", "イスラム教徒", "創価", "統一教会", "幸福の科学"]),
      Subcategory("不謹慎な表現", [
        "震災", "津波", "台風", "災害", "コロナ", "パンデミック",
        "事故", "自殺", "死亡", "殺人"])
    ])

  const LegalCategory: Category :=
    Category("法律基準", [
      Subcategory("景表法関連", [
        "最高", "最低", "最大", "最小", "最高級", "業界一",
        "日本一", "世界一", "最安値", "完全", "完璧", "永久",
        "確実", "保証", "間違いない", "必ず"]),
      Subcategory("薬機法関連", [
        "治療", "治癒", "完治", "予防", "効能", "効果",
        "副作用", "医薬品", "医療機器", "処方", "投薬", "服用"]),
      Subcategory("労働法関連", [
        "残業代", "賃金", "給与", "未払い", "長時間労働", "サービス残業",
        "休憩なし", "有給休暇", "労災"])
    ])

  const RightsCategory: Category :=
    Category("著作権・肖像権", [
      Subcategory("著作権侵害", [
        "無断使用", "無断転載", "無許可", "コピー", "著作権", "転載",
        "複製", "海賊版", "違法アップロード"]),
      Subcategory("肖像権侵害", [
        "個人情報", "住所", "電話番号", "メールアドレス", "顔写真", "身分証",
        "免許証", "パスポート"])
    ])

  const SecretsCategory: Category :=
    Category("企業秘密", [
      Subcategory("機密情報", [
        "機密", "極秘", "社外秘", "部外秘", "関係者外", "未発表",
        "未公開", "内部情報", "インサイダー", "新製品", "開発中", "試作品",
        "企画書", "設計図", "売上", "利益"])
    ])

  /** The spelling-variant table (checker.py:84-156); entry order is the order in which the
      normaliser rewrites. It is written as four consecutive pieces only to keep each literal
      small for the verifier. */
  const KeywordVariations: seq<Variation> := VariationsA + VariationsB + VariationsC + VariationsD

  const VariationsA: seq<Variation> := [
    Variation("差別", ["さべつ", "サベツ"]),
    Variation("侮蔑", ["ぶべつ", "バカにする"]),
    Variation("馬鹿", ["バカ", "アホ", "あほ", "阿呆", "アフォ"]),
    Variation("死ね", ["しね", "くたばれ", "〇ね"]),
    Variation("きもい", ["キモイ", "きもっ"]),
    Variation("障害者", ["しょうがいしゃ", "ショウガイシャ", "障がい者"]),
    Variation("病人", ["びょうにん", "ビョウニン"]),
    Variation("知恵遅れ", ["ちえおくれ", "チエオクレ"]),
    Variation("気違い", ["きちがい", "キチガイ"]),
    Variation("基地外", ["きちがい", "キチガイ"]),
    Variation("女のくせに", ["おんなのくせに", "オンナのくせに"]),
    Variation("男のくせに", ["おとこのくせに", "オトコのくせに"]),
    Variation("女だから", ["おんなだから", "オンナだから"]),
    Variation("男だから", ["おとこだから", "オトコだから"]),
    Variation("女の分際", ["おんなのぶんざい", "オンナのブンザイ"]),
    Variation("男の分際", ["おとこのぶんざい", "オトコのブンザイ"]),
    Variation("仏教徒", ["ぶっきょうと", "ブッキョウト"]),
    Variation("キリスト教徒", ["クリスチャン", "くりすちゃん"])
  ]

  const VariationsB: seq<Variation> := [
    Variation("イスラム教徒", ["ムスリム", "むすりむ"]),
    Variation("震災", ["しんさい", "シンサイ"]),
    Variation("津波", ["つなみ", "ツナミ"]),
    Variation("台風", ["たいふう", "タイフウ"]),
    Variation("災害", ["さいがい", "サイガイ"]),
    Variation("コロナ", ["corona", "Corona", "COVID"]),
    Variation("パンデミック", ["pandemic", "ぱんでみっく"]),
    Variation("自殺", ["じさつ", "ジサツ"]),
    Variation("死亡", ["しぼう", "シボウ"]),
    Variation("殺人", ["さつじん", "サツジン"]),
    Variation("最高", ["さいこう", "サイコウ", "サイコー"]),
    Variation("最低", ["さいてい", "サイテイ"]),
    Variation("最大", ["さいだい", "サイダイ"]),
    Variation("最小", ["さいしょう", "サイショウ"]),
    Variation("最高級", ["さいこうきゅう", "サイコウキュウ"]),
    Variation("業界一", ["ぎょうかいいち", "ギョウカイイチ"]),
    Variation("完全", ["かんぜん", "カンゼン"]),
    Variation("完璧", ["かんぺき", "カンペキ"])
  ]

  const VariationsC: seq<Variation> := [
    Variation("永久", ["えいきゅう", "エイキュウ"]),
    Variation("確実", ["かくじつ", "カクジツ"]),
    Variation("治療", ["ちりょう", "チリョウ"]),
    Variation("治癒", ["ちゆ", "チユ"]),
    Variation("完治", ["かんち", "カンチ"]),
    Variation("予防", ["よぼう", "ヨボウ"]),
    Variation("効能", ["こうのう", "コウノウ"]),
    Variation("効果", ["こうか", "コウカ"]),
    Variation("副作用", ["ふくさよう", "フクサヨウ"]),
    Variation("医薬品", ["いやくひん", "イヤクヒン"]),
    Variation("医療機器", ["いりょうきき", "イリョウキキ"]),
    Variation("残業代", ["ざんぎょうだい", "ザンギョウダイ"]),
    Variation("賃金", ["ちんぎん", "チンギン"]),
    Variation("給与", ["きゅうよ", "キュウヨ"]),
    Variation("未払い", ["みばらい", "ミバライ"]),
    Variation("長時間労働", ["ちょうじかんろうどう", "チョウジカンロウドウ"]),
    Variation("有給休暇", ["ゆうきゅう", "ユウキュウ"]),
    Variation("労災", ["ろうさい", "ロウサイ"])
  ]

  const VariationsD: seq<Variation> := [
    Variation("無断使用", ["むだんしよう", "ムダンシヨウ"]),
    Variation("無断転載", ["むだんてんさい", "ムダンテンサイ"]),
    Variation("無許可", ["むきょか", "ムキョカ"]),
    Variation("著作権", ["ちょさくけん", "チョサクケン"]),
    Variation("複製", ["ふくせい", "フクセイ"]),
    Variation("機密", ["きみつ", "キミツ"]),
    Variation("極秘", ["ごくひ", "ゴクヒ"]),
    Variation("社外秘", ["しゃがいひ", "シャガイヒ"]),
    Variation("部外秘", ["ぶがいひ", "ブガイヒ"]),
    Variation("インサイダー", ["insider", "Insider"]),
    Variation("新製品", ["しんせいひん", "シンセイヒン"]),
    Variation("開発中", ["かいはつちゅう", "カイハツチュウ"]),
    Variation("試作品", ["しさくひん", "シサクヒン"]),
    Variation("企画書", ["きかくしょ", "キカクショ"]),
    Variation("設計図", ["せっけいず", "セッケイズ"]),
    Variation("売上", ["うりあげ", "ウリアゲ"]),
    Variation("利益", ["りえき", "リエキ"])
  ]
}

=== FILE: frames.dfy ===
/** The frame axis `analyze_video_frames` (checker.py:336-408), without the download, the
    decoder and the classifier: which frames are sampled and at what time, and which of the
    classifier's predictions for a frame raise a weapon alert. */
module Frames {
  import opened Wrappers
  import opened Strings
  import opened Sequences

  /** A sampled frame: its position in the stream and its time in whole seconds. */
  datatype SampledFrame = SampledFrame(index: nat, time: nat)

  /** Why sampling fails: a stream reporting 0 frames per second makes the sampling rate 0,
      and the first `frame_count % sampling_rate` divides by zero. */
  datatype SamplingError = ZeroFrameRate

  /** The sampling loop of checker.py:361-376 over a stream of which `frameCount` frames can
      be read, at `fps` frames per second (both as the decoder reports them). Every
      `5 * fps`-th frame is kept, starting with the first, at time `frame_count // fps`. */
  method SampleFrames(frameCount: nat, fps: nat) returns (r: Result<seq<SampledFrame>, SamplingError>)
    ensures r.Failure? <==> fps == 0 && frameCount > 0
    ensures fps == 0 && r.Success? ==> r.value == []
    ensures r.Success? && fps > 0 ==> SampledEvery(r.value, frameCount, 5 * fps)
    ensures r.Success? && fps > 0 ==> forall i :: 0 <= i < |r.value| ==> r.value[i].time == r.value[i].index / fps
  {
    if fps == 0 {
      if frameCount > 0 {
        return Failure(ZeroFrameRate);
      }
      return Success([]);
    }
    var frames: seq<SampledFrame> := [];
    var count := 0;
    while count < frameCount
      invariant count <= frameCount
      invariant SampledSoFar(frames, count, fps)
    {
      SampleStep(frames, count, fps);
      frames := Visit(frames, count, fps);
      count := count + 1;
    }
    SamplingDone(frames, frameCount, fps);
    return Success(frames);
  }

  /** The loop invariant: `frames` samples the first `count` frames at every `5 * fps`-th. */
  predicate SampledSoFar(frames: seq<SampledFrame>, count: nat, fps: nat)
  {
    |frames| == CeilDiv(count, 5 * fps)
    && forall i :: 0 <= i < |frames| ==> frames[i] == SampledFrame(5 * fps * i, 5 * i)
  }

  /** One pass of the sampling loop (checker.py:368-374): frame `count` is kept when it is a
      multiple of the rate, stamped with its second. */
  function Visit(frames: seq<SampledFrame>, count: nat, fps: nat): seq<SampledFrame>
    requires fps > 0
  {
    if count % (5 * fps) == 0 then frames + [SampledFrame(count, count / fps)] else frames
  }

  /** One pass of the sampling loop keeps the samples exactly the multiples of the rate seen
      so far. */
  lemma SampleStep(frames: seq<SampledFrame>, count: nat, fps: nat)
    requires fps > 0 && SampledSoFar(frames, count, fps)
    ensures SampledSoFar(Visit(frames, count, fps), count + 1, fps)
  {
    var rate := 5 * fps;
    CeilDivStep(count, rate);
    if count % rate == 0 {
      var q := count / rate;
      assert count == rate * q;
      MultipleTime(q, fps);
    }
  }

  /** At the end of the loop the samples are those of the whole stream, each at its own
      second. */
  lemma SamplingDone(frames: seq<SampledFrame>, frameCount: nat, fps: nat)
    requires fps > 0 && SampledSoFar(frames, frameCount, fps)
    ensures SampledEvery(frames, frameCount, 5 * fps)
    ensures forall i :: 0 <= i < |frames| ==> frames[i].time == frames[i].index / fps
  {
    forall i | 0 <= i < |frames|
      ensures frames[i].time == frames[i].index / fps
    {
      MultipleTime(i, fps);
    }
    SampledMultiples(frames, frameCount, 5 * fps);
  }

  /** `frames` is the sampling of `frameCount` frames at every `rate`-th frame: frame `i` is
      stream frame `rate * i`, at `5 * i` seconds; there are ceil(frameCount / rate) of them,
      so every index is below `frameCount`, and every multiple of `rate` below `frameCount`
      is sampled. */
  predicate SampledEvery(frames: seq<SampledFrame>, frameCount: nat, rate: nat)
  {
    |frames| == CeilDiv(frameCount, rate)
    && (forall i :: 0 <= i < |frames| ==> frames[i] == SampledFrame(rate * i, 5 * i) && frames[i].index < frameCount)
    && (forall f :: 0 <= f < frameCount && rate > 0 && f % rate == 0 ==> SampledFrame(f, 5 * (f / rate)) in frames)
  }

  /** ceil(n / d) for d > 0, as the number of multiples of d below n. */
  function CeilDiv(n: nat, d: nat): nat
  {
    if d == 0 then 0 else (n + d - 1) / d
  }

  /** Multiplication by a natural number is monotonic. */
  lemma {:induction false} MulMonotonic(d: nat, a: nat, b: nat)
    requires a <= b
    ensures d * a <= d * b
    decreases b - a
  {
    if a < b {
      MulMonotonic(d, a, b - 1);
      assert d * b == d * (b - 1) + d;
    }
  }

  /** `q` is `n / d` when `d * q <= n < d * q + d`. */
  lemma DivBetween(n: nat, d: nat, q: nat)
    requires d > 0 && d * q <= n < d * q + d
    ensures n / d == q
  {
    var p := n / d;
    assert n == d * p + n % d;
    assert d * (p + 1) == d * p + d;
    assert d * (q + 1) == d * q + d;
    MulOrdered(d, p + 1, q);
    MulOrdered(d, q + 1, p);
  }

  /** Monotonicity as an implication, for use where the ordering is not yet known. */
  lemma MulOrdered(d: nat, a: int, b: int)
    ensures 0 <= a <= b ==> d * a <= d * b
  {
    if 0 <= a <= b {
      MulMonotonic(d, a, b);
    }
  }

  /** One more frame adds a sample exactly when the current frame is a multiple of `d`. */
  lemma CeilDivStep(n: nat, d: nat)
    requires d > 0
    ensures CeilDiv(n + 1, d) == CeilDiv(n, d) + (if n % d == 0 then 1 else 0)
    ensures n % d == 0 ==> CeilDiv(n, d) == n / d
  {
    var q := n / d;
    var m := n % d;
    assert n == d * q + m;
    assert d * (q + 1) == d * q + d;
    if m == 0 {
      DivBetween(n + d - 1, d, q);
      DivBetween(n + d, d, q + 1);
    } else {
      DivBetween(n + d - 1, d, q + 1);
      DivBetween(n + d, d, q + 1);
    }
  }

  /** The `i`-th sampled frame, stream frame `5 * fps * i`, is at `5 * i` seconds. */
  lemma MultipleTime(i: nat, fps: nat)
    requires fps > 0
    ensures (5 * fps * i) / fps == 5 * i
  {
    assert 5 * fps * i == fps * (5 * i);
    DivBetween(5 * fps * i, fps, 5 * i);
  }

  /** The samples cover every multiple of the rate below the frame count, and no index at
      or beyond it. */
  lemma SampledMultiples(frames: seq<SampledFrame>, frameCount: nat, rate: nat)
    requires rate > 0
    requires |frames| == CeilDiv(frameCount, rate)
    requires forall i :: 0 <= i < |frames| ==> frames[i] == SampledFrame(rate * i, 5 * i)
    ensures SampledEvery(frames, frameCount, rate)
  {
    forall i | 0 <= i < |frames|
      ensures frames[i].index < frameCount
    {
      CeilBound(frameCount, rate, i);
    }
    forall f | 0 <= f < frameCount && f % rate == 0
      ensures SampledFrame(f, 5 * (f / rate)) in frames
    {
      var q := f / rate;
      assert f == rate * q;
      CeilCovers(frameCount, rate, q);
      assert frames[q] == SampledFrame(rate * q, 5 * q);
    }
  }

  lemma CeilBound(n: nat, d: nat, i: nat)
    requires d > 0 && i < CeilDiv(n, d)
    ensures d * i < n
  {
    var c := CeilDiv(n, d);
    assert n + d - 1 == d * c + (n + d - 1) % d;
    MulMonotonic(d, i + 1, c);
    assert d * (i + 1) == d * i + d;
  }

  lemma CeilCovers(n: nat, d: nat, q: nat)
    requires d > 0 && d * q < n
    ensures q < CeilDiv(n, d)
  {
    var c := CeilDiv(n, d);
    assert n + d - 1 == d * c + (n + d - 1) % d;
    MulStrict(d, q, c);
  }

  /** Cancelling a common factor keeps a strict order. */
  lemma MulStrict(d: nat, a: nat, b: nat)
    requires d * a < d * b
    ensures a < b
  {
    if b <= a {
      MulMonotonic(d, b, a);
    }
  }

  /** Sampled times strictly increase along the sample list, five seconds apart. */
  lemma TimesIncrease(frames: seq<SampledFrame>, frameCount: nat, rate: nat, i: nat, j: nat)
    requires SampledEvery(frames, frameCount, rate)
    requires i < j < |frames|
    ensures frames[i].time < frames[j].time
    ensures frames[j].time - frames[i].time == 5 * (j - i)
  {
  }

  // ---------------------------------------------------------------------------
  // Weapon alerts (checker.py:397-405).

  /** One classifier prediction: an ImageNet class name (the `label` of `decode_predictions`) and its confidence. */
  datatype Prediction = Prediction(name: string, confidence: real)

  /** How many of the classifier's ranked predictions are examined (`top=5`). */
  const TopCount: nat := 5

  /** The alert test: a confidence strictly above 0.2 and a class name containing `weapon` or
      `gun`. */
  predicate IsAlert(p: Prediction)
  {
    p.confidence > 0.2 && (Contains(p.name, "weapon") || Contains(p.name, "gun"))
  }

  /** The first `TopCount` predictions of a ranking (fewer if it is shorter). */
  function Top(ranked: seq<Prediction>): (r: seq<Prediction>)
    ensures |r| <= TopCount && |r| <= |ranked| && r == ranked[..|r|]
    ensures |ranked| >= TopCount ==> |r| == TopCount
    ensures |ranked| < TopCount ==> r == ranked
  {
    if |ranked| <= TopCount then ranked else ranked[..TopCount]
  }

  /** The predictions that raise a warning for one frame, in ranking order: exactly those
      of the first five that pass the alert test, each as often as it passes, possibly
      several. */
  function Alerts(ranked: seq<Prediction>): (r: seq<Prediction>)
    ensures forall i :: 0 <= i < |r| ==> r[i] in Top(ranked) && IsAlert(r[i])
    ensures forall i :: 0 <= i < |Top(ranked)| && IsAlert(Top(ranked)[i]) ==> Top(ranked)[i] in r
    ensures IsSubsequence(r, Top(ranked))
    ensures |r| == CountWhere(Top(ranked), IsAlert)
    ensures |r| <= TopCount
  {
    var r := Filter(Top(ranked), IsAlert);
    SubsequenceLength(r, Top(ranked));
    r
  }

  /** A confidence of exactly 0.2 does not alert, whatever the class name. */
  lemma ThresholdIsStrict(name: string)
    ensures !IsAlert(Prediction(name, 0.2))
  {
  }

  /** Both keywords alert above the threshold, also inside longer class names. */
  lemma KeywordsAlert(prefix: string, suffix: string, confidence: real)
    requires confidence > 0.2
    ensures IsAlert(Prediction(prefix + "gun" + suffix, confidence))
    ensures IsAlert(Prediction(prefix + "weapon" + suffix, confidence))
  {
    ContainsInfix(prefix, "gun", suffix);
    ContainsInfix(prefix, "weapon", suffix);
  }
}

=== FILE: issues.dfy ===
/** `get_keywords_from_issue` (checker.py:328-334): the search term of a report line is the
    text between its first two `'` characters. Because `start` is `find(...) + 1`, it is
    never -1, so only the second search decides whether a term is found. */
module Issues {
  import opened Strings
  import opened Catalog
  import opened Normalizer
  import opened Matcher

  const Quote: char := '\''

  /** The text between the first two quotes of `issue`, as a list of at most one term. */
  function KeywordsFromIssue(issue: string): (r: seq<string>)
    ensures CountChar(issue, Quote) < 2 <==> r == []
    ensures r != [] ==> exists i, j :: FirstTwoQuotes(issue, i, j) && r == [issue[i + 1..j]]
  {
    var start := Find(issue, Quote, 0) + 1;
    var end := Find(issue, Quote, start);
    QuoteCount(issue, start - 1, end);
    if start != -1 && end != -1 then [issue[start..end]] else []
  }

  /** `i` and `j` are the positions of the first and the second quote of `s`. */
  ghost predicate FirstTwoQuotes(s: string, i: int, j: int)
  {
    0 <= i < j < |s| && s[i] == Quote && s[j] == Quote
    && Excludes(s[..i], Quote) && Excludes(s[i + 1..j], Quote)
  }

  /** Relates the two searches to the number of quotes in `s`. */
  lemma QuoteCount(s: string, first: int, second: int)
    requires first == Find(s, Quote, 0)
    requires second == Find(s, Quote, first + 1)
    ensures second != -1 <==> CountChar(s, Quote) >= 2
    ensures second != -1 ==> FirstTwoQuotes(s, first, second)
  {
    FindCount(s, Quote, 0);
    assert s[0..] == s;
    if first != -1 {
      FindCount(s, Quote, first + 1);
      if second != -1 {
        SliceExcludes(s, 0, first, Quote);
        assert s[..first] == s[0..first];
        SliceExcludes(s, first + 1, second, Quote);
      }
    }
  }

  /** A slice of positions none of which holds `c` excludes `c`. */
  lemma SliceExcludes(s: string, a: nat, b: nat, c: char)
    requires a <= b <= |s|
    requires forall i :: a <= i < b ==> s[i] != c
    ensures Excludes(s[a..b], c)
  {
    assert forall k :: 0 <= k < b - a ==> s[a..b][k] == s[a + k];
  }

  /** Round trip: the term extracted from an issue line is the keyword it was built from,
      provided neither the subcategory nor the keyword contains a quote. */
  lemma IssueRoundTrip(sub: string, kw: string)
    requires Excludes(sub, Quote) && Excludes(kw, Quote)
    ensures KeywordsFromIssue(IssueLine(sub, kw)) == [kw]
  {
    var prefix := "・" + sub + ": ";
    ExcludesAppend("・", sub, Quote);
    ExcludesAppend("・" + sub, ": ", Quote);
    var lead := prefix + [Quote];
    var body := lead + kw;
    var closed := body + [Quote];
    var line := closed + "を含む表現があります";
    assert line == IssueLine(sub, kw);
    FindAt(line, Quote, 0, |prefix|);
    FindAt(line, Quote, |lead|, |body|);
    assert line[|lead|..|body|] == kw;
  }

  /** A category header yields no search term, so it is never attributed to a segment. */
  lemma HeaderHasNoKeyword(cat: string)
    requires Excludes(cat, Quote)
    ensures KeywordsFromIssue(HeaderLine(cat)) == []
  {
    var line := HeaderLine(cat);
    assert line == "\n【" + cat + "】";
    CountCharAppend("\n【" + cat, "】", Quote);
    CountCharAppend("\n【", cat, Quote);
    CountCharZero(cat, Quote);
  }

  /** No name or keyword of category `c` holds a quote. */
  predicate CategoryQuoteFree(c: Category)
  {
    Excludes(c.name, Quote) && forall j :: 0 <= j < |c.subcategories| ==> SubcategoryQuoteFree(c.subcategories[j])
  }

  predicate SubcategoryQuoteFree(sub: Subcategory)
  {
    Excludes(sub.name, Quote) && forall k :: 0 <= k < |sub.keywords| ==> Excludes(sub.keywords[k], Quote)
  }

  /** No category name, subcategory name or keyword of the catalogue holds a quote. */
  predicate QuoteFree(rules: seq<Category>)
  {
    forall i :: 0 <= i < |rules| ==> CategoryQuoteFree(rules[i])
  }

  lemma EthicsQuoteFree()
    ensures CategoryQuoteFree(EthicsCategory)
  {
    DiscriminationQuoteFree();
    GenderQuoteFree();
    ReligionQuoteFree();
    DisasterQuoteFree();
  }

  lemma DiscriminationQuoteFree()
    ensures SubcategoryQuoteFree(EthicsCategory.subcategories[0])
  {
  }

  lemma GenderQuoteFree()
    ensures SubcategoryQuoteFree(EthicsCategory.subcategories[1])
  {
  }

  lemma ReligionQuoteFree()
    ensures SubcategoryQuoteFree(EthicsCategory.subcategories[2])
  {
  }

  lemma DisasterQuoteFree()
    ensures SubcategoryQuoteFree(EthicsCategory.subcategories[3])
  {
  }

  lemma LegalQuoteFree()
    ensures CategoryQuoteFree(LegalCategory)
  {
    AdvertisingQuoteFree();
    PharmaceuticalQuoteFree();
    LabourQuoteFree();
  }

  lemma AdvertisingQuoteFree()
    ensures SubcategoryQuoteFree(LegalCategory.subcategories[0])
  {
  }

  lemma PharmaceuticalQuoteFree()
    ensures SubcategoryQuoteFree(LegalCategory.subcategories[1])
  {
  }

  lemma LabourQuoteFree()
    ensures SubcategoryQuoteFree(LegalCategory.subcategories[2])
  {
  }

  lemma RightsQuoteFree()
    ensures CategoryQuoteFree(RightsCategory)
  {
    CopyrightQuoteFree();
    PortraitQuoteFree();
  }

  lemma CopyrightQuoteFree()
    ensures SubcategoryQuoteFree(RightsCategory.subcategories[0])
  {
  }

  lemma PortraitQuoteFree()
    ensures SubcategoryQuoteFree(RightsCategory.subcategories[1])
  {
  }

  lemma SecretsQuoteFree()
    ensures CategoryQuoteFree(SecretsCategory)
  {
    ConfidentialQuoteFree();
  }

  lemma ConfidentialQuoteFree()
    ensures SubcategoryQuoteFree(SecretsCategory.subcategories[0])
  {
  }

  /** The source's catalogue holds no quote, so every issue line it produces round-trips. */
  lemma ComplianceRulesQuoteFree()
    ensures QuoteFree(ComplianceRules)
  {
    EthicsQuoteFree();
    LegalQuoteFree();
    RightsQuoteFree();
    SecretsQuoteFree();
  }

  /** Every line of a report over a quote-free catalogue yields its search term: an issue
      line yields exactly the keyword that hit, a header yields none. */
  lemma ReportLineKeywords(rules: seq<Category>, table: seq<Variation>, text: string, line: string)
    requires QuoteFree(rules)
    requires line in CheckWith(rules, table, text)
    ensures (exists c, sub, k :: CatalogueHit(rules, table, NormalizeWith(table, text), c, sub, k)
               && line == IssueLine(sub.name, k) && KeywordsFromIssue(line) == [k])
         || (exists c :: c in rules && line == HeaderLine(c.name) && KeywordsFromIssue(line) == [])
  {
    var normalized := NormalizeWith(table, text);
    CategoryBlocksContents(table, normalized, rules);
    if c, sub, k :| CatalogueHit(rules, table, normalized, c, sub, k) && line == IssueLine(sub.name, k) {
      var i :| 0 <= i < |rules| && rules[i] == c;
      var j :| 0 <= j < |c.subcategories| && c.subcategories[j] == sub;
      var m :| 0 <= m < |sub.keywords| && sub.keywords[m] == k;
      assert CategoryQuoteFree(rules[i]);
      assert SubcategoryQuoteFree(c.subcategories[j]);
      IssueRoundTrip(sub.name, k);
    } else {
      var c :| c in rules && CategoryHasHit(table, normalized, c) && line == HeaderLine(c.name);
      var i :| 0 <= i < |rules| && rules[i] == c;
      assert CategoryQuoteFree(rules[i]);
      HeaderHasNoKeyword(c.name);
    }
  }
}

=== FILE: localizer.dfy ===
/** The transcript axis `analyze_text_content` (checker.py:300-326): the transcript text is
    normalised and then checked (so it is normalised twice, once here and once inside the
    matcher). With segments, every issue line is followed by the segments whose normalised,
    lower-cased text contains the term extracted from that line, all of them, in order.
    Without segments the issue lines stand alone. The term searched is the raw catalogue
    keyword, not its normal form. */
module Localizer {
  import opened Wrappers
  import opened Strings
  import opened Catalog
  import opened Normalizer
  import opened Matcher
  import opened Issues
  import opened Transcript
  import opened Sequences

  /** The test of checker.py:318-319: some extracted term occurs in the segment's text after
      `normalize_text(...).lower()`. */
  predicate SegmentMatches(table: seq<Variation>, seg: Segment, terms: seq<string>)
  {
    exists term :: term in terms && Contains(Lower(NormalizeWith(table, seg.text)), term)
  }

  /** The segment test as a function value, for one table and one list of terms. */
  function MatchTest(table: seq<Variation>, terms: seq<string>): Segment -> bool
  {
    seg => SegmentMatches(table, seg, terms)
  }

  /** The segments listed under one issue line (checker.py:317-320): exactly the matching
      segments, in transcript order, every one of them as often as it occurs. */
  function LocateIssue(table: seq<Variation>, issue: string, segments: seq<Segment>): (r: seq<Segment>)
    ensures forall i :: 0 <= i < |r| ==> r[i] in segments && SegmentMatches(table, r[i], KeywordsFromIssue(issue))
    ensures forall i :: 0 <= i < |segments| && SegmentMatches(table, segments[i], KeywordsFromIssue(issue)) ==> segments[i] in r
    ensures IsSubsequence(r, segments)
    ensures |r| == CountWhere(segments, MatchTest(table, KeywordsFromIssue(issue)))
    ensures KeywordsFromIssue(issue) == [] ==> r == []
  {
    var terms := KeywordsFromIssue(issue);
    var r := Filter(segments, MatchTest(table, terms));
    NothingMatchesNoTerm(table, r, terms);
    r
  }

  /** With no term to look for, no segment matches. */
  lemma NothingMatchesNoTerm(table: seq<Variation>, r: seq<Segment>, terms: seq<string>)
    requires forall i :: 0 <= i < |r| ==> SegmentMatches(table, r[i], terms)
    ensures terms == [] ==> r == []
  {
    if |r| > 0 {
      assert SegmentMatches(table, r[0], terms);
    }
  }

  /** One issue line and the segments listed under it. */
  datatype ReportEntry = ReportEntry(issue: string, locations: seq<Segment>)

  /** What the transcript axis shows: nothing when no transcript could be obtained, an
      all-clear for the transcript's source, or the issues with their locations. */
  datatype TextReport = NoTranscript | AllClear(source: Provenance) | Flagged(source: Provenance, entries: seq<ReportEntry>)

  /** The report entries for a list of issues. */
  function Entries(table: seq<Variation>, issues: seq<string>, segments: Option<seq<Segment>>): (r: seq<ReportEntry>)
    ensures |r| == |issues|
    ensures forall i :: 0 <= i < |r| ==> r[i].issue == issues[i]
    ensures forall i :: 0 <= i < |r| ==>
              r[i].locations == (if segments.Some? then LocateIssue(table, issues[i], segments.value) else [])
  {
    seq(|issues|, i requires 0 <= i < |issues| =>
      ReportEntry(issues[i], if segments.Some? then LocateIssue(table, issues[i], segments.value) else []))
  }

  /** `analyze_text_content` over arbitrary tables. No transcript gives no report; a
      transcript is all clear exactly when its (normalised) text hits nothing; otherwise
      entry `i` holds issue line `i`, in report order, located only when the transcript has
      segments. */
  function AnalyzeTextContentWith(rules: seq<Category>, table: seq<Variation>, transcript: Option<TranscriptResult>): (r: TextReport)
    ensures transcript.None? <==> r.NoTranscript?
    ensures transcript.Some? ==>
              (r.AllClear? <==> CheckWith(rules, table, NormalizeWith(table, transcript.value.text)) == [])
    ensures r.AllClear? ==> transcript.Some? && r.source == transcript.value.source
    ensures r.Flagged? ==>
              transcript.Some? && r.source == transcript.value.source
              && var issues := CheckWith(rules, table, NormalizeWith(table, transcript.value.text));
                 |r.entries| == |issues| > 0
                 && forall i :: 0 <= i < |r.entries| ==> r.entries[i].issue == issues[i]
    ensures r.Flagged? && transcript.value.segments.None? ==> forall i :: 0 <= i < |r.entries| ==> r.entries[i].locations == []
  {
    match transcript
    case None => NoTranscript
    case Some(t) =>
      var issues := CheckWith(rules, table, NormalizeWith(table, t.text));
      if issues == [] then AllClear(t.source)
      else Flagged(t.source, Entries(table, issues, t.segments))
  }

  /** `analyze_text_content` with the source's tables. */
  function AnalyzeTextContent(transcript: Option<TranscriptResult>): (r: TextReport)
    ensures transcript.None? <==> r.NoTranscript?
  {
    AnalyzeTextContentWith(ComplianceRules, KeywordVariations, transcript)
  }

  /** Where a line of a report over a quote-free catalogue is located: a header nowhere, an
      issue line at exactly the segments whose normalised text contains the raw keyword. */
  lemma LineLocations(rules: seq<Category>, table: seq<Variation>, text: string, line: string, segments: seq<Segment>)
    requires QuoteFree(rules)
    requires line in CheckWith(rules, table, text)
    ensures var located := LocateIssue(table, line, segments);
            (exists c :: c in rules && line == HeaderLine(c.name) && located == [])
            || (exists c, sub, k :: c in rules && sub in c.subcategories && k in sub.keywords
                  && line == IssueLine(sub.name, k)
                  && (forall j :: 0 <= j < |located| ==>
                        located[j] in segments && Contains(Lower(NormalizeWith(table, located[j].text)), k))
                  && (forall j :: 0 <= j < |segments| && Contains(Lower(NormalizeWith(table, segments[j].text)), k) ==>
                        segments[j] in located))
  {
    ReportLineKeywords(rules, table, text, line);
    if c, sub, k :| CatalogueHit(rules, table, NormalizeWith(table, text), c, sub, k)
                    && line == IssueLine(sub.name, k) && KeywordsFromIssue(line) == [k] {
      KeywordLocations(table, line, k, segments);
    }
  }

  /** An issue line whose term is `k` is located at exactly the segments containing `k`. */
  lemma KeywordLocations(table: seq<Variation>, line: string, k: string, segments: seq<Segment>)
    requires KeywordsFromIssue(line) == [k]
    ensures var located := LocateIssue(table, line, segments);
            (forall j :: 0 <= j < |located| ==>
               located[j] in segments && Contains(Lower(NormalizeWith(table, located[j].text)), k))
            && (forall j :: 0 <= j < |segments| && Contains(Lower(NormalizeWith(table, segments[j].text)), k) ==>
                  segments[j] in located)
  {
    var located := LocateIssue(table, line, segments);
    forall j | 0 <= j < |located|
      ensures Contains(Lower(NormalizeWith(table, located[j].text)), k)
    {
      assert SegmentMatches(table, located[j], [k]);
    }
    forall j | 0 <= j < |segments| && Contains(Lower(NormalizeWith(table, segments[j].text)), k)
      ensures segments[j] in located
    {
      assert SegmentMatches(table, segments[j], [k]);
    }
  }

  /** In a flagged report over a transcript with timed segments, every entry is one of the
      issues of the normalised text, listed with the segments located for its own line. */
  lemma FlaggedLocations(rules: seq<Category>, table: seq<Variation>, transcript: TranscriptResult, i: nat)
    requires AnalyzeTextContentWith(rules, table, Some(transcript)).Flagged?
    requires transcript.segments.Some?
    requires i < |AnalyzeTextContentWith(rules, table, Some(transcript)).entries|
    ensures var e := AnalyzeTextContentWith(rules, table, Some(transcript)).entries[i];
            e.issue in CheckWith(rules, table, NormalizeWith(table, transcript.text))
            && e.locations == LocateIssue(table, e.issue, transcript.segments.value)
  {
    var issues := CheckWith(rules, table, NormalizeWith(table, transcript.text));
    assert issues[i] in issues;
  }

  /** The lines the transcript axis writes for its entries: each issue line, followed by one
      `→{time}「{text}」` line per listed segment. */
  function ReportLines(entries: seq<ReportEntry>): (r: seq<string>)
    ensures |r| >= |entries|
    ensures entries != [] ==>
              (|r| > |entries[0].locations| && r[0] == entries[0].issue
               && r[1..1 + |entries[0].locations|] == LocationLines(entries[0].locations))
  {
    if entries == [] then []
    else [entries[0].issue] + LocationLines(entries[0].locations) + ReportLines(entries[1..])
  }

  /** Where entry `i`'s block starts in the timed report: after the lines of the entries
      before it. */
  function Offset(entries: seq<ReportEntry>, i: nat): nat
    requires i <= |entries|
  {
    |ReportLines(entries[..i])|
  }

  /** The timed report is the entries' blocks laid end to end, with nothing else: the first
      block starts at line 0, each block is entry `i`'s issue line at `Offset(entries, i)`
      directly followed by its own location lines, the next block starts right after it,
      and the last one ends the report. */
  lemma ReportLayout(entries: seq<ReportEntry>)
    ensures Offset(entries, 0) == 0 && Offset(entries, |entries|) == |ReportLines(entries)|
    ensures forall i :: 0 <= i < |entries| ==>
              Offset(entries, i + 1) == Offset(entries, i) + 1 + |entries[i].locations| <= |ReportLines(entries)|
              && ReportLines(entries)[Offset(entries, i)] == entries[i].issue
              && ReportLines(entries)[Offset(entries, i) + 1..Offset(entries, i + 1)]
                 == LocationLines(entries[i].locations)
  {
    assert entries[..0] == [];
    assert entries[..|entries|] == entries;
    forall i | 0 <= i < |entries|
      ensures Offset(entries, i + 1) == Offset(entries, i) + 1 + |entries[i].locations| <= |ReportLines(entries)|
      ensures ReportLines(entries)[Offset(entries, i)] == entries[i].issue
      ensures ReportLines(entries)[Offset(entries, i) + 1..Offset(entries, i + 1)]
              == LocationLines(entries[i].locations)
    {
      BlockAt(entries, i);
    }
  }

  /** Every issue appears in the timed report. */
  lemma ReportListsIssues(entries: seq<ReportEntry>)
    ensures forall i :: 0 <= i < |entries| ==> entries[i].issue in ReportLines(entries)
  {
    ReportLayout(entries);
  }

  /** The report of two runs of entries is the report of the first, then of the second. */
  lemma {:induction false} ReportAppend(a: seq<ReportEntry>, b: seq<ReportEntry>)
    ensures ReportLines(a + b) == ReportLines(a) + ReportLines(b)
  {
    if a == [] {
      assert a + b == b;
    } else {
      assert (a + b)[1..] == a[1..] + b;
      ReportAppend(a[1..], b);
    }
  }

  /** Entry `i`'s block: its issue line at `Offset(entries, i)`, then its location lines. */
  lemma BlockAt(entries: seq<ReportEntry>, i: nat)
    requires i < |entries|
    ensures Offset(entries, i + 1) == Offset(entries, i) + 1 + |entries[i].locations| <= |ReportLines(entries)|
    ensures ReportLines(entries)[Offset(entries, i)] == entries[i].issue
    ensures ReportLines(entries)[Offset(entries, i) + 1..Offset(entries, i + 1)]
            == LocationLines(entries[i].locations)
  {
    var pre := ReportLines(entries[..i]);
    var mid := LocationLines(entries[i].locations);
    ReportAround(entries, i);
    assert Offset(entries, i) == |pre|;
    assert Offset(entries, i + 1) == |pre| + 1 + |mid|;
    BlockInside(ReportLines(entries), pre, entries[i].issue, mid, ReportLines(entries[i + 1..]));
  }

  /** In `pre + ([x] + mid) + post`, `x` sits at `|pre|` and `mid` follows it. */
  lemma BlockInside<T>(whole: seq<T>, pre: seq<T>, x: T, mid: seq<T>, post: seq<T>)
    requires whole == pre + ([x] + mid) + post
    ensures |pre| + 1 + |mid| <= |whole|
    ensures whole[|pre|] == x
    ensures whole[|pre| + 1..|pre| + 1 + |mid|] == mid
  {
    SliceAfter(pre, [x] + mid + post, 1, 1 + |mid|);
    assert whole == pre + ([x] + mid + post);
  }

  /** The report splits around entry `i`: the lines of the entries before it, its own block,
      the lines of the entries after it. */
  lemma ReportAround(entries: seq<ReportEntry>, i: nat)
    requires i < |entries|
    ensures ReportLines(entries[..i + 1]) == ReportLines(entries[..i]) + ([entries[i].issue] + LocationLines(entries[i].locations))
    ensures ReportLines(entries) == ReportLines(entries[..i + 1]) + ReportLines(entries[i + 1..])
  {
    SplitAt(entries, i);
    assert ReportLines(entries[..i + 1]) == ReportLines(entries[..i]) + ReportLines([entries[i]]) by {
      ReportAppend(entries[..i], [entries[i]]);
    }
    ReportOne(entries[i]);
    ReportAppend(entries[..i + 1], entries[i + 1..]);
  }

  /** A single entry is written as its issue line, then its location lines. */
  lemma ReportOne(e: ReportEntry)
    ensures ReportLines([e]) == [e.issue] + LocationLines(e.locations)
  {
    assert [e][1..] == [];
  }

  lemma SplitAt<T>(s: seq<T>, i: nat)
    requires i < |s|
    ensures s[..i + 1] == s[..i] + [s[i]]
    ensures s == s[..i + 1] + s[i + 1..]
  {
  }

  /** A slice lying wholly in the second part of a concatenation is a slice of that part. */
  lemma SliceAfter<T>(a: seq<T>, b: seq<T>, x: nat, y: nat)
    requires x <= y <= |b|
    ensures (a + b)[|a| + x..|a| + y] == b[x..y]
  {
  }

  function LocationLines(locations: seq<Segment>): (r: seq<string>)
    ensures |r| == |locations|
    ensures forall i :: 0 <= i < |r| ==> r[i] == "→" + locations[i].time + "「" + locations[i].text + "」"
  {
    if locations == [] then []
    else ["→" + locations[0].time + "「" + locations[0].text + "」"] + LocationLines(locations[1..])
  }

  /** Entries without locations are written as their bare issue lines: no timestamp is ever
      invented for a transcript that has none. */
  lemma {:induction false} UntimedLines(entries: seq<ReportEntry>)
    requires forall i :: 0 <= i < |entries| ==> entries[i].locations == []
    ensures ReportLines(entries) == seq(|entries|, i requires 0 <= i < |entries| => entries[i].issue)
  {
    if entries != [] {
      UntimedLines(entries[1..]);
    }
  }

  /** A speech-recognition transcript that raises issues is reported as its bare issue lines. */
  lemma SpeechReportUntimed(rules: seq<Category>, table: seq<Variation>, text: string)
    requires AnalyzeTextContentWith(rules, table, Some(SpeechTranscript(text))).Flagged?
    ensures ReportLines(AnalyzeTextContentWith(rules, table, Some(SpeechTranscript(text))).entries)
            == CheckWith(rules, table, NormalizeWith(table, text))
  {
    var issues := CheckWith(rules, table, NormalizeWith(table, text));
    var entries := AnalyzeTextContentWith(rules, table, Some(SpeechTranscript(text))).entries;
    UntimedLines(entries);
    assert seq(|entries|, i requires 0 <= i < |entries| => entries[i].issue) == issues;
  }
}

=== FILE: matcher.dfy ===
/** The keyword matcher `check_inappropriate_content` (checker.py:175-192) and the metadata
    axis `analyze_video_content` (checker.py:194-200). The matcher normalises the text once,
    then walks the catalogue category by category, subcategory by subcategory, keyword by
    keyword; a keyword hits when its own normalised form is a substring of the normalised
    text. A category's header line is emitted, followed by its hit lines, only when the
    category has at least one hit. */
module Matcher {
  import opened Strings
  import opened Catalog
  import opened Normalizer
  import opened Wrappers

  /** The report line for one hit: `・{sub}: '{kw}'を含む表現があります`. */
  function IssueLine(sub: string, kw: string): string
  {
    "・" + sub + ": '" + kw + "'を含む表現があります"
  }

  /** The category header line: `\n【{cat}】`. */
  function HeaderLine(cat: string): string
  {
    "\n【" + cat + "】"
  }

  /** The hit test of checker.py:185: `normalize_text(keyword) in normalized_text`. */
  predicate Hits(table: seq<Variation>, normalized: string, kw: string)
  {
    Contains(normalized, NormalizeWith(table, kw))
  }

  /** Lines for the keywords of one subcategory, in keyword order. */
  function KeywordLines(table: seq<Variation>, normalized: string, sub: string, kws: seq<string>): seq<string>
    decreases |kws|
  {
    if kws == [] then []
    else
      (if Hits(table, normalized, kws[0]) then [IssueLine(sub, kws[0])] else [])
      + KeywordLines(table, normalized, sub, kws[1..])
  }

  /** Lines for the subcategories of one category (`category_results`), in catalogue order. */
  function SubcategoryLines(table: seq<Variation>, normalized: string, subs: seq<Subcategory>): seq<string>
    decreases |subs|
  {
    if subs == [] then []
    else
      KeywordLines(table, normalized, subs[0].name, subs[0].keywords)
      + SubcategoryLines(table, normalized, subs[1..])
  }

  /** One category's block: its header and its hit lines, or nothing at all. */
  function CategoryLines(table: seq<Variation>, normalized: string, c: Category): seq<string>
  {
    var hits := SubcategoryLines(table, normalized, c.subcategories);
    if hits == [] then [] else [HeaderLine(c.name)] + hits
  }

  /** The blocks of all categories, concatenated in catalogue order. */
  function CategoryBlocks(table: seq<Variation>, normalized: string, cats: seq<Category>): seq<string>
    decreases |cats|
  {
    if cats == [] then []
    else CategoryLines(table, normalized, cats[0]) + CategoryBlocks(table, normalized, cats[1..])
  }

  /** `check_inappropriate_content` over arbitrary tables. */
  function CheckWith(rules: seq<Category>, table: seq<Variation>, text: string): seq<string>
  {
    CategoryBlocks(table, NormalizeWith(table, text), rules)
  }

  /** `check_inappropriate_content` with the source's tables. */
  function CheckInappropriateContent(text: string): seq<string>
  {
    CheckWith(ComplianceRules, KeywordVariations, text)
  }

  // ---------------------------------------------------------------------------
  // An independent description of the result: which lines it holds and how many.

  /** Keyword `k` of subcategory `sub` of category `c` is in the catalogue and hits. */
  ghost predicate CatalogueHit(rules: seq<Category>, table: seq<Variation>, normalized: string,
                               c: Category, sub: Subcategory, k: string)
  {
    c in rules && sub in c.subcategories && k in sub.keywords && Hits(table, normalized, k)
  }

  /** Category `c` has at least one keyword that hits. */
  ghost predicate CategoryHasHit(table: seq<Variation>, normalized: string, c: Category)
  {
    exists sub, k :: sub in c.subcategories && k in sub.keywords && Hits(table, normalized, k)
  }

  /** Number of hitting keywords, counted over the catalogue. */
  function HitCount(table: seq<Variation>, normalized: string, kws: seq<string>): nat
    decreases |kws|
  {
    if kws == [] then 0
    else (if Hits(table, normalized, kws[0]) then 1 else 0) + HitCount(table, normalized, kws[1..])
  }

  function SubcategoryHitCount(table: seq<Variation>, normalized: string, subs: seq<Subcategory>): nat
    decreases |subs|
  {
    if subs == [] then 0
    else HitCount(table, normalized, subs[0].keywords) + SubcategoryHitCount(table, normalized, subs[1..])
  }

  /** The lines of one subcategory are exactly the issue lines of its hitting keywords,
      one per hitting keyword. */
  lemma {:induction false} KeywordLinesSpec(table: seq<Variation>, normalized: string, sub: string, kws: seq<string>)
    ensures |KeywordLines(table, normalized, sub, kws)| == HitCount(table, normalized, kws)
    ensures forall line :: line in KeywordLines(table, normalized, sub, kws) <==>
              exists k :: k in kws && Hits(table, normalized, k) && line == IssueLine(sub, k)
    decreases |kws|
  {
    if kws != [] {
      KeywordLinesSpec(table, normalized, sub, kws[1..]);
      assert forall k :: k in kws <==> k == kws[0] || k in kws[1..];
    }
  }

  /** The lines of a category's subcategories are exactly the issue lines of its hitting
      keywords. */
  lemma {:induction false} SubcategoryLinesSpec(table: seq<Variation>, normalized: string, subs: seq<Subcategory>)
    ensures |SubcategoryLines(table, normalized, subs)| == SubcategoryHitCount(table, normalized, subs)
    ensures forall line :: line in SubcategoryLines(table, normalized, subs) <==>
              exists sub, k :: sub in subs && k in sub.keywords && Hits(table, normalized, k) && line == IssueLine(sub.name, k)
    decreases |subs|
  {
    if subs != [] {
      KeywordLinesSpec(table, normalized, subs[0].name, subs[0].keywords);
      SubcategoryLinesSpec(table, normalized, subs[1..]);
      assert forall sub :: sub in subs <==> sub == subs[0] || sub in subs[1..];
    }
  }

  /** A category contributes a block iff it has a hit; the block is its header followed by
      exactly its hit lines, in catalogue order, one per hitting keyword. */
  lemma CategoryLinesSpec(table: seq<Variation>, normalized: string, c: Category)
    ensures CategoryLines(table, normalized, c) != [] <==> CategoryHasHit(table, normalized, c)
    ensures CategoryHasHit(table, normalized, c) ==>
              CategoryLines(table, normalized, c) == [HeaderLine(c.name)] + SubcategoryLines(table, normalized, c.subcategories)
              && |CategoryLines(table, normalized, c)| == 1 + SubcategoryHitCount(table, normalized, c.subcategories)
  {
    SubcategoryLinesSpec(table, normalized, c.subcategories);
    var hits := SubcategoryLines(table, normalized, c.subcategories);
    if hits != [] {
      assert hits[0] in hits;
    }
    if CategoryHasHit(table, normalized, c) {
      var sub, k :| sub in c.subcategories && k in sub.keywords && Hits(table, normalized, k);
      assert IssueLine(sub.name, k) in hits;
    }
  }

  /** Number of categories with at least one hit. */
  function BlockCount(table: seq<Variation>, normalized: string, cats: seq<Category>): nat
    decreases |cats|
  {
    if cats == [] then 0
    else (if SubcategoryHitCount(table, normalized, cats[0].subcategories) > 0 then 1 else 0)
         + BlockCount(table, normalized, cats[1..])
  }

  function TotalHitCount(table: seq<Variation>, normalized: string, cats: seq<Category>): nat
    decreases |cats|
  {
    if cats == [] then 0
    else SubcategoryHitCount(table, normalized, cats[0].subcategories) + TotalHitCount(table, normalized, cats[1..])
  }

  /** The report of a text has one line per hitting catalogue keyword plus one header per
      category that has a hit. */
  lemma {:induction false} CategoryBlocksLength(table: seq<Variation>, normalized: string, cats: seq<Category>)
    ensures |CategoryBlocks(table, normalized, cats)| == TotalHitCount(table, normalized, cats) + BlockCount(table, normalized, cats)
    decreases |cats|
  {
    if cats != [] {
      var c0 := cats[0];
      CategoryLinesSpec(table, normalized, c0);
      SubcategoryLinesSpec(table, normalized, c0.subcategories);
      CategoryBlocksLength(table, normalized, cats[1..]);
    }
  }

  /** The lines of a report are exactly the issue lines of hitting catalogue keywords and
      the headers of categories that have a hit. */
  lemma {:induction false} CategoryBlocksContents(table: seq<Variation>, normalized: string, cats: seq<Category>)
    ensures forall line :: line in CategoryBlocks(table, normalized, cats) <==>
              (exists c, sub, k :: CatalogueHit(cats, table, normalized, c, sub, k) && line == IssueLine(sub.name, k))
              || (exists c :: c in cats && CategoryHasHit(table, normalized, c) && line == HeaderLine(c.name))
    decreases |cats|
  {
    if cats != [] {
      var c0 := cats[0];
      var rest := cats[1..];
      CategoryLinesSpec(table, normalized, c0);
      SubcategoryLinesSpec(table, normalized, c0.subcategories);
      CategoryBlocksContents(table, normalized, rest);
      forall line
        ensures line in CategoryBlocks(table, normalized, cats) <==>
              (exists c, sub, k :: CatalogueHit(cats, table, normalized, c, sub, k) && line == IssueLine(sub.name, k))
              || (exists c :: c in cats && CategoryHasHit(table, normalized, c) && line == HeaderLine(c.name))
      {
        var head := CategoryLines(table, normalized, c0);
        assert line in CategoryBlocks(table, normalized, cats) <==> line in head || line in CategoryBlocks(table, normalized, rest);
        if line in head {
          if line == HeaderLine(c0.name) {
            assert c0 in cats;
          } else {
            assert line in SubcategoryLines(table, normalized, c0.subcategories);
            var sub, k :| sub in c0.subcategories && k in sub.keywords && Hits(table, normalized, k) && line == IssueLine(sub.name, k);
            assert CatalogueHit(cats, table, normalized, c0, sub, k);
          }
        } else if line in CategoryBlocks(table, normalized, rest) {
          if c, sub, k :| CatalogueHit(rest, table, normalized, c, sub, k) && line == IssueLine(sub.name, k) {
            assert CatalogueHit(cats, table, normalized, c, sub, k);
          } else {
            var c :| c in rest && CategoryHasHit(table, normalized, c) && line == HeaderLine(c.name);
            assert c in cats;
          }
        } else {
          if c, sub, k :| CatalogueHit(cats, table, normalized, c, sub, k) && line == IssueLine(sub.name, k) {
            if c == c0 {
              assert false;
            } else {
              assert CatalogueHit(rest, table, normalized, c, sub, k);
              assert false;
            }
          }
          if c :| c in cats && CategoryHasHit(table, normalized, c) && line == HeaderLine(c.name) {
            if c == c0 {
              assert false;
            } else {
              assert false;
            }
          }
        }
      }
    }
  }

  /** Every keyword of the catalogue is non-empty. */
  predicate KeywordsNonEmpty(rules: seq<Category>)
  {
    forall i, j, k ::
      (0 <= i < |rules| && 0 <= j < |rules[i].subcategories| && 0 <= k < |rules[i].subcategories[j].keywords|)
      ==> |rules[i].subcategories[j].keywords[k]| > 0
  }

  lemma ComplianceRulesNonEmpty()
    ensures KeywordsNonEmpty(ComplianceRules)
  {
    EthicsNonEmpty();
    LegalNonEmpty();
    RightsNonEmpty();
    SecretsNonEmpty();
  }

  /** No keyword of category `c` is empty. */
  predicate CategoryNonEmpty(c: Category)
  {
    forall j, k :: 0 <= j < |c.subcategories| && 0 <= k < |c.subcategories[j].keywords| ==> |c.subcategories[j].keywords[k]| > 0
  }

  lemma EthicsNonEmpty()
    ensures CategoryNonEmpty(EthicsCategory)
  {
  }

  lemma LegalNonEmpty()
    ensures CategoryNonEmpty(LegalCategory)
  {
  }

  lemma RightsNonEmpty()
    ensures CategoryNonEmpty(RightsCategory)
  {
  }

  lemma SecretsNonEmpty()
    ensures CategoryNonEmpty(SecretsCategory)
  {
  }

  /** Every catalogue keyword, checked on its own, reports itself: its normal form is a
      substring of itself. */
  lemma KeywordSelfMatch(rules: seq<Category>, table: seq<Variation>, c: Category, sub: Subcategory, k: string)
    requires c in rules && sub in c.subcategories && k in sub.keywords
    ensures IssueLine(sub.name, k) in CheckWith(rules, table, k)
    ensures HeaderLine(c.name) in CheckWith(rules, table, k)
  {
    ContainsSelf(NormalizeWith(table, k));
    CategoryBlocksContents(table, NormalizeWith(table, k), rules);
    assert CatalogueHit(rules, table, NormalizeWith(table, k), c, sub, k);
  }

  /** Checking the empty text (as for a video without tags) reports nothing. */
  lemma {:induction false} CheckEmpty(rules: seq<Category>, table: seq<Variation>)
    requires WellFormedTable(table) && KeywordsNonEmpty(rules)
    ensures CheckWith(rules, table, "") == []
  {
    NormalizeEmpty(table);
    CategoryBlocksContents(table, "", rules);
    forall c, sub, k | c in rules && sub in c.subcategories && k in sub.keywords
      ensures !Hits(table, "", k)
    {
      NoHitOnEmpty(rules, table, c, sub, k);
    }
    NoElementEmpty(CheckWith(rules, table, ""));
  }

  /** No keyword of a well-formed catalogue hits the empty text. */
  lemma NoHitOnEmpty(rules: seq<Category>, table: seq<Variation>, c: Category, sub: Subcategory, k: string)
    requires WellFormedTable(table) && KeywordsNonEmpty(rules)
    requires c in rules && sub in c.subcategories && k in sub.keywords
    ensures !Hits(table, "", k)
  {
    var i :| 0 <= i < |rules| && rules[i] == c;
    var j :| 0 <= j < |c.subcategories| && c.subcategories[j] == sub;
    var m :| 0 <= m < |sub.keywords| && sub.keywords[m] == k;
    assert |k| > 0;
    NotContainedInEmpty(NormalizeWith(table, k));
  }

  /** The video metadata the metadata axis reads; `tags` may be missing. */
  datatype Snippet = Snippet(title: string, description: string, tags: Option<seq<string>>)

  /** The three per-field reports of `analyze_video_content`. */
  datatype MetadataReport = MetadataReport(title: seq<string>, description: seq<string>, tags: seq<string>)

  /** `analyze_video_content` over arbitrary tables: title and description are checked as
      they are; the tags are space-joined first, a missing tag list counting as empty. With
      a catalogue of non-empty keywords and forms, a video without tags gets an empty tag
      report; a single tag is checked exactly like that tag on its own, and several tags are
      checked as one text with a space between neighbours. */
  function AnalyzeVideoContentWith(rules: seq<Category>, table: seq<Variation>, snippet: Snippet): (r: MetadataReport)
    ensures r.title == CheckWith(rules, table, snippet.title)
    ensures r.description == CheckWith(rules, table, snippet.description)
    ensures WellFormedTable(table) && KeywordsNonEmpty(rules) && (snippet.tags == None || snippet.tags == Some([])) ==>
              r.tags == []
    ensures r.tags == CheckWith(rules, table, Join(if snippet.tags.Some? then snippet.tags.value else [], " "))
    ensures snippet.tags.Some? && |snippet.tags.value| == 1 ==> r.tags == CheckWith(rules, table, snippet.tags.value[0])
  {
    var tags := match snippet.tags case Some(ts) => ts case None => [];
    NoTagsNoReport(rules, table);
    MetadataReport(
      CheckWith(rules, table, snippet.title),
      CheckWith(rules, table, snippet.description),
      CheckWith(rules, table, Join(tags, " ")))
  }

  /** An empty tag list joins to the empty text, which reports nothing. */
  lemma NoTagsNoReport(rules: seq<Category>, table: seq<Variation>)
    ensures WellFormedTable(table) && KeywordsNonEmpty(rules) ==> CheckWith(rules, table, Join([], " ")) == []
  {
    if WellFormedTable(table) && KeywordsNonEmpty(rules) {
      CheckEmpty(rules, table);
    }
  }

  /** `analyze_video_content` (checker.py:194-200) with the source's tables. */
  function AnalyzeVideoContent(snippet: Snippet): (r: MetadataReport)
    ensures snippet.tags == None || snippet.tags == Some([]) ==> r.tags == []
  {
    KeywordVariationsWellFormed();
    ComplianceRulesNonEmpty();
    AnalyzeVideoContentWith(ComplianceRules, KeywordVariations, snippet)
  }
}

=== FILE: normalize_order.dfy ===
/** How the order of the variant table shapes `normalize_text` (checker.py:158-164), shown
    on entries of the source's table. Each example is split into single rewriting steps:
    one `str.replace`, one entry, then the two entries in sequence. */
module NormalizeOrder {
  import opened Strings
  import opened Catalog
  import opened Normalizer

  // ---------------------------------------------------------------------------
  // Steps of the rewrite, for any entry.

  lemma ApplyFormsCons(s: string, f: string, rest: seq<string>, target: string)
    ensures ApplyForms(s, [f] + rest, target) == ApplyForms(ReplaceAll(s, Lower(f), target), rest, target)
  {
    assert ([f] + rest)[1..] == rest;
  }

  lemma ApplyTableCons(s: string, v: Variation, rest: seq<Variation>)
    ensures ApplyTable(s, [v] + rest) == ApplyTable(ApplyVariation(s, v), rest)
  {
    assert ([v] + rest)[1..] == rest;
  }

  /** An entry whose first variant rewrites `s` to `t`, after which its other variants
      leave `t` alone. Rewriting the canonical form by itself first changes nothing. */
  lemma EntryRewrites(s: string, v: Variation, f: string, rest: seq<string>, t: string)
    requires v.variants == [f] + rest && Lower(v.canonical) == v.canonical
    requires ReplaceAll(s, Lower(f), v.canonical) == t
    requires ApplyForms(t, rest, v.canonical) == t
    ensures ApplyVariation(s, v) == t
  {
    assert Forms(v) == [v.canonical] + ([f] + rest);
    ApplyFormsCons(s, v.canonical, [f] + rest, v.canonical);
    ApplyFormsCons(s, f, rest, v.canonical);
  }

  /** An entry with two variants, none of whose forms occurs in `s`, leaves `s` alone. */
  lemma EntryIdle2(s: string, v: Variation)
    requires |v.variants| == 2 && Lower(v.canonical) == v.canonical
    requires !Contains(s, Lower(v.variants[0])) && !Contains(s, Lower(v.variants[1]))
    ensures ApplyVariation(s, v) == s
  {
    assert Forms(v) == [v.canonical] + v.variants;
    ApplyFormsCons(s, v.canonical, v.variants, v.canonical);
  }

  /** An entry with three variants, none of whose forms occurs in `s`, leaves `s` alone. */
  lemma EntryIdle3(s: string, v: Variation)
    requires |v.variants| == 3 && Lower(v.canonical) == v.canonical
    requires !Contains(s, Lower(v.variants[0])) && !Contains(s, Lower(v.variants[1]))
    requires !Contains(s, Lower(v.variants[2]))
    ensures ApplyVariation(s, v) == s
  {
    assert Forms(v) == [v.canonical] + v.variants;
    ApplyFormsCons(s, v.canonical, v.variants, v.canonical);
  }

  /** A pattern with a character missing from `s`, and without upper-case letters. */
  lemma Absent(s: string, p: string, k: nat)
    requires k < |p| && Excludes(s, p[k]) && NoUpper(p)
    ensures !Contains(s, Lower(p))
  {
    LowerIdentity(p);
    MissingChar(s, p, k);
  }

  /** A variant at the front of `s` whose tail misses one of its characters: the variant is
      replaced once and the tail is kept. */
  lemma FrontReplaced(s: string, pat: string, tail: string, rep: string, t: string, k: nat)
    requires |pat| > 0 && NoUpper(pat) && k < |pat| && Excludes(tail, pat[k])
    requires s == pat + tail && t == rep + tail
    ensures ReplaceAll(s, Lower(pat), rep) == t
  {
    LowerIdentity(pat);
    ReplaceAtFront(pat, tail, rep);
    MissingChar(tail, pat, k);
  }

  /** A variant that ends `s` after two characters neither of which starts it. */
  lemma BackReplaced(s: string, a: char, b: char, pat: string, rep: string, t: string)
    requires |pat| > 0 && NoUpper(pat) && pat[0] != a && pat[0] != b
    requires s == [a, b] + pat && t == [a, b] + rep
    ensures ReplaceAll(s, Lower(pat), rep) == t
  {
    LowerIdentity(pat);
    assert ReplaceAll(pat, pat, rep) == rep by {
      ReplaceAtFront(pat, [], rep);
      assert pat + [] == pat && rep + [] == rep;
    }
    assert ReplaceAll([b] + pat, pat, rep) == [b] + rep by {
      ReplaceSkipsFront(b, pat, pat, rep);
    }
    assert s == [a] + ([b] + pat) && t == [a] + ([b] + rep);
    ReplaceSkipsFront(a, [b] + pat, pat, rep);
  }

  /** Two entries applied one after the other to a text without upper-case letters. */
  lemma TwoEntries(text: string, v1: Variation, v2: Variation, mid: string, r: string)
    requires NoUpper(text)
    requires ApplyVariation(text, v1) == mid && ApplyVariation(mid, v2) == r
    ensures NormalizeWith([v1, v2], text) == r
  {
    LowerIdentity(text);
    ApplyTableCons(text, v1, [v2]);
    ApplyTableCons(mid, v2, []);
  }

  // ---------------------------------------------------------------------------
  // The entries involved.

  const Kimoi := Variation("きもい", ["キモイ", "きもっ"])
  const Muslim := Variation("イスラム教徒", ["ムスリム", "むすりむ"])
  const Kichigai := Variation("気違い", ["きちがい", "キチガイ"])
  const Kichigai2 := Variation("基地外", ["きちがい", "キチガイ"])
  const High := Variation("最高", ["さいこう", "サイコウ", "サイコー"])
  const Highest := Variation("最高級", ["さいこうきゅう", "サイコウキュウ"])

  /** The entries of the source's table that the examples use, by position. */
  lemma TableEntries()
    ensures KeywordVariations[4] == Kimoi && KeywordVariations[8] == Kichigai
    ensures KeywordVariations[9] == Kichigai2 && KeywordVariations[18] == Muslim
    ensures KeywordVariations[28] == High && KeywordVariations[32] == Highest
  {
    assert |VariationsA| == 18;
    assert KeywordVariations[..|VariationsA| + |VariationsB|] == VariationsA + VariationsB;
  }

  // ---------------------------------------------------------------------------
  // さいこうきゅう: 最高 (position 28) comes before 最高級 (position 32). The steps take
  // their texts as parameters, so each proof sees only the equalities it needs.

  lemma SaikouReplaced(s: string, t: string)
    requires s == "さいこうきゅう" && t == "最高きゅう"
    ensures ReplaceAll(s, Lower("さいこう"), "最高") == t
  {
    FrontReplaced(s, "さいこう", "きゅう", "最高", t, 0);
  }

  lemma HighTailIdle(t: string)
    requires t == "最高きゅう"
    ensures ApplyForms(t, ["サイコウ", "サイコー"], "最高") == t
  {
    Absent(t, "サイコウ", 0);
    Absent(t, "サイコー", 0);
  }

  lemma HighOnSaikoukyuu(s: string, t: string)
    requires s == "さいこうきゅう" && t == "最高きゅう"
    ensures ApplyVariation(s, High) == t
  {
    LowerIdentity("最高");
    SaikouReplaced(s, t);
    HighTailIdle(t);
    EntryRewrites(s, High, "さいこう", ["サイコウ", "サイコー"], t);
  }

  lemma HighestOnShortened(t: string)
    requires t == "最高きゅう"
    ensures ApplyVariation(t, Highest) == t
  {
    LowerIdentity("最高級");
    Absent(t, "さいこうきゅう", 0);
    Absent(t, "サイコウキュウ", 0);
    EntryIdle2(t, Highest);
  }

  lemma SaikoukyuuReplaced(s: string, t: string)
    requires s == "さいこうきゅう" && t == "最高級"
    ensures ReplaceAll(s, Lower("さいこうきゅう"), "最高級") == t
  {
    FrontReplaced(s, "さいこうきゅう", [], "最高級", t, 0);
  }

  lemma HighestTailIdle(t: string)
    requires t == "最高級"
    ensures ApplyForms(t, ["サイコウキュウ"], "最高級") == t
  {
    Absent(t, "サイコウキュウ", 0);
  }

  lemma HighestOnSaikoukyuu(s: string, t: string)
    requires s == "さいこうきゅう" && t == "最高級"
    ensures ApplyVariation(s, Highest) == t
  {
    LowerIdentity("最高級");
    SaikoukyuuReplaced(s, t);
    HighestTailIdle(t);
    EntryRewrites(s, Highest, "さいこうきゅう", ["サイコウキュウ"], t);
  }

  lemma HighOnHighest(t: string)
    requires t == "最高級"
    ensures ApplyVariation(t, High) == t
  {
    LowerIdentity("最高");
    Absent(t, "さいこう", 0);
    Absent(t, "サイコウ", 0);
    Absent(t, "サイコー", 0);
    EntryIdle3(t, High);
  }

  lemma NoUpperSaikoukyuu()
    ensures NoUpper("さいこうきゅう")
  {
  }

  lemma NoUpperKichigai()
    ensures NoUpper("きちがい")
  {
  }

  lemma NoUpperKimomusurimu()
    ensures NoUpper("キモムスリム")
  {
  }

  lemma NoUpperKimoislam()
    ensures NoUpper("キモイスラム教徒")
  {
  }

  lemma HighFirst(s: string, t: string)
    requires s == "さいこうきゅう" && t == "最高きゅう"
    ensures NormalizeWith([High, Highest], s) == t
  {
    HighOnSaikoukyuu(s, t);
    HighestOnShortened(t);
    NoUpperSaikoukyuu();
    TwoEntries(s, High, Highest, t, t);
  }

  lemma HighestFirst(s: string, t: string)
    requires s == "さいこうきゅう" && t == "最高級"
    ensures NormalizeWith([Highest, High], s) == t
  {
    HighestOnSaikoukyuu(s, t);
    HighOnHighest(t);
    NoUpperSaikoukyuu();
    TwoEntries(s, Highest, High, t, t);
  }

  /** The source lists 最高 before 最高級, so さいこうきゅう is rewritten by the shorter entry
      first and ends up as 最高きゅう: the longer entry never gets to match. */
  lemma SaikouSourceOrder()
    ensures NormalizeWith([KeywordVariations[28], KeywordVariations[32]], "さいこうきゅう") == "最高きゅう"
  {
    TableEntries();
    HighFirst("さいこうきゅう", "最高きゅう");
  }

  /** With the same two entries the other way round, the text becomes 最高級. */
  lemma SaikouReversedOrder()
    ensures NormalizeWith([KeywordVariations[32], KeywordVariations[28]], "さいこうきゅう") == "最高級"
  {
    TableEntries();
    HighestFirst("さいこうきゅう", "最高級");
  }

  // ---------------------------------------------------------------------------
  // きちがい: a variant of both 気違い (position 8) and 基地外 (position 9).

  lemma KichigaiReplaced(s: string, t: string)
    requires s == "きちがい" && t == "気違い"
    ensures ReplaceAll(s, Lower("きちがい"), "気違い") == t
  {
    FrontReplaced(s, "きちがい", [], "気違い", t, 0);
  }

  lemma KichigaiTailIdle(t: string)
    requires t == "気違い"
    ensures ApplyForms(t, ["キチガイ"], "気違い") == t
  {
    Absent(t, "キチガイ", 0);
  }

  lemma KichigaiOnKichigai(s: string, t: string)
    requires s == "きちがい" && t == "気違い"
    ensures ApplyVariation(s, Kichigai) == t
  {
    LowerIdentity("気違い");
    KichigaiReplaced(s, t);
    KichigaiTailIdle(t);
    EntryRewrites(s, Kichigai, "きちがい", ["キチガイ"], t);
  }

  lemma SecondKichigaiIdle(t: string)
    requires t == "気違い"
    ensures ApplyVariation(t, Kichigai2) == t
  {
    LowerIdentity("基地外");
    Absent(t, "きちがい", 0);
    Absent(t, "キチガイ", 0);
    EntryIdle2(t, Kichigai2);
  }

  lemma KichigaiFirst(s: string, t: string)
    requires s == "きちがい" && t == "気違い"
    ensures NormalizeWith([Kichigai, Kichigai2], s) == t
  {
    KichigaiOnKichigai(s, t);
    SecondKichigaiIdle(t);
    NoUpperKichigai();
    TwoEntries(s, Kichigai, Kichigai2, t, t);
  }

  /** きちがい is a variant of both 気違い and 基地外; the earlier entry wins. */
  lemma KichigaiFirstEntryWins()
    ensures NormalizeWith([KeywordVariations[8], KeywordVariations[9]], "きちがい") == "気違い"
  {
    TableEntries();
    KichigaiFirst("きちがい", "気違い");
  }

  // ---------------------------------------------------------------------------
  // キモムスリム: きもい (position 4) comes before イスラム教徒 (position 18).

  lemma KimoiIdle(s: string)
    requires s == "キモムスリム"
    ensures ApplyVariation(s, Kimoi) == s
  {
    LowerIdentity("きもい");
    Absent(s, "キモイ", 2);
    Absent(s, "きもっ", 0);
    EntryIdle2(s, Kimoi);
  }

  lemma MusurimuReplaced(s: string, t: string)
    requires s == "キモムスリム" && t == "キモイスラム教徒"
    ensures ReplaceAll(s, Lower("ムスリム"), "イスラム教徒") == t
  {
    BackReplaced(s, 'キ', 'モ', "ムスリム", "イスラム教徒", t);
  }

  lemma MuslimTailIdle(t: string)
    requires t == "キモイスラム教徒"
    ensures ApplyForms(t, ["むすりむ"], "イスラム教徒") == t
  {
    Absent(t, "むすりむ", 0);
  }

  lemma MuslimOnKimomusurimu(s: string, t: string)
    requires s == "キモムスリム" && t == "キモイスラム教徒"
    ensures ApplyVariation(s, Muslim) == t
  {
    LowerIdentity("イスラム教徒");
    MusurimuReplaced(s, t);
    MuslimTailIdle(t);
    EntryRewrites(s, Muslim, "ムスリム", ["むすりむ"], t);
  }

  lemma KimoiReplaced(s: string, t: string)
    requires s == "キモイスラム教徒" && t == "きもいスラム教徒"
    ensures ReplaceAll(s, Lower("キモイ"), "きもい") == t
  {
    FrontReplaced(s, "キモイ", "スラム教徒", "きもい", t, 0);
  }

  lemma KimoiTailIdle(t: string)
    requires t == "きもいスラム教徒"
    ensures ApplyForms(t, ["きもっ"], "きもい") == t
  {
    Absent(t, "きもっ", 2);
  }

  lemma KimoiOnRewritten(s: string, t: string)
    requires s == "キモイスラム教徒" && t == "きもいスラム教徒"
    ensures ApplyVariation(s, Kimoi) == t
  {
    LowerIdentity("きもい");
    KimoiReplaced(s, t);
    KimoiTailIdle(t);
    EntryRewrites(s, Kimoi, "キモイ", ["きもっ"], t);
  }

  lemma MuslimIdle(t: string)
    requires t == "きもいスラム教徒"
    ensures ApplyVariation(t, Muslim) == t
  {
    LowerIdentity("イスラム教徒");
    Absent(t, "ムスリム", 2);
    Absent(t, "むすりむ", 0);
    EntryIdle2(t, Muslim);
  }

  lemma OnceAndTwice(s: string, once: string, twice: string)
    requires s == "キモムスリム" && once == "キモイスラム教徒" && twice == "きもいスラム教徒"
    ensures NormalizeWith([Kimoi, Muslim], s) == once
    ensures NormalizeWith([Kimoi, Muslim], once) == twice
  {
    KimoiIdle(s);
    MuslimOnKimomusurimu(s, once);
    NoUpperKimomusurimu();
    TwoEntries(s, Kimoi, Muslim, s, once);
    KimoiOnRewritten(once, twice);
    MuslimIdle(twice);
    NoUpperKimoislam();
    TwoEntries(once, Kimoi, Muslim, twice, twice);
  }

  /** Normalisation is not idempotent: over the table's きもい and イスラム教徒 entries,
      キモムスリム normalises to キモイスラム教徒, whose own normal form is きもいスラム教徒.
      A rewrite can create an occurrence of an earlier entry's variant. */
  lemma NormalizeNotIdempotent()
    ensures var table := [KeywordVariations[4], KeywordVariations[18]];
            NormalizeWith(table, "キモムスリム") == "キモイスラム教徒"
            && NormalizeWith(table, NormalizeWith(table, "キモムスリム")) == "きもいスラム教徒"
  {
    TableEntries();
    OnceAndTwice("キモムスリム", "キモイスラム教徒", "きもいスラム教徒");
  }
}

=== FILE: normalizer.dfy ===
/** The normaliser `normalize_text` (checker.py:158-164): lower-case the text, then walk the
    variant table in order and, for each entry, literally replace the canonical form and
    each of its variants (all lower-cased) by the lower-cased canonical form. Earlier
    entries win: a later entry never sees text an earlier one already rewrote. */
module Normalizer {
  import opened Strings
  import opened Catalog

  /** The forms an entry rewrites, in the order `[standard] + variations`. */
  function Forms(v: Variation): seq<string>
  {
    [v.canonical] + v.variants
  }

  /** The inner loop: rewrite each form, in order, to `target`. */
  function ApplyForms(s: string, forms: seq<string>, target: string): (r: string)
    decreases |forms|
    ensures NoUpper(s) && NoUpper(target) ==> NoUpper(r)
    ensures (forall k :: 0 <= k < |forms| ==> !Contains(s, Lower(forms[k]))) ==> r == s
    ensures |s| > 0 && |target| > 0 && (forall k :: 0 <= k < |forms| ==> |forms[k]| > 0) ==> |r| > 0
  {
    if forms == [] then s
    else ApplyForms(ReplaceAll(s, Lower(forms[0]), target), forms[1..], target)
  }

  /** Once the target is in the text, rewriting further non-empty forms to it keeps it. */
  lemma {:induction false} FormsKeepTarget(s: string, forms: seq<string>, target: string)
    requires forall j :: 0 <= j < |forms| ==> |forms[j]| > 0
    requires Contains(s, target)
    ensures Contains(ApplyForms(s, forms, target), target)
    decreases |forms|
  {
    if forms != [] {
      ReplaceKeeps(s, Lower(forms[0]), target);
      FormsKeepTarget(ReplaceAll(s, Lower(forms[0]), target), forms[1..], target);
    }
  }

  /** A form that occurs is rewritten: if the lower-cased form `k` occurs in the text, the
      target is in the result. An earlier form may have rewritten that occurrence first, but
      then it wrote the target itself. */
  lemma {:induction false} FormsInsertTarget(s: string, forms: seq<string>, target: string, k: nat)
    requires forall j :: 0 <= j < |forms| ==> |forms[j]| > 0
    requires k < |forms| && Contains(s, Lower(forms[k]))
    ensures Contains(ApplyForms(s, forms, target), target)
    decreases |forms|
  {
    var next := ReplaceAll(s, Lower(forms[0]), target);
    if Contains(s, Lower(forms[0])) {
      ReplaceInserts(s, Lower(forms[0]), target);
      FormsKeepTarget(next, forms[1..], target);
    } else {
      FormsInsertTarget(next, forms[1..], target, k - 1);
    }
  }

  /** One entry rewrites an occurring form to its lower-cased canonical form. */
  lemma EntryInsertsCanonical(s: string, v: Variation, k: nat)
    requires forall j :: 0 <= j < |Forms(v)| ==> |Forms(v)[j]| > 0
    requires k < |Forms(v)| && Contains(s, Lower(Forms(v)[k]))
    ensures Contains(ApplyVariation(s, v), Lower(v.canonical))
  {
    FormsInsertTarget(s, Forms(v), Lower(v.canonical), k);
  }

  /** One entry of the table applied to already lower-cased text. */
  function ApplyVariation(s: string, v: Variation): string
  {
    ApplyForms(s, Forms(v), Lower(v.canonical))
  }

  /** No lower-cased form of any entry of `table` occurs in `s`. */
  predicate Untouched(s: string, table: seq<Variation>)
  {
    forall i, k :: 0 <= i < |table| && 0 <= k < |Forms(table[i])| ==> !Contains(s, Lower(Forms(table[i])[k]))
  }

  /** Every entry has a non-empty canonical form and non-empty variants. */
  predicate WellFormedTable(table: seq<Variation>)
  {
    forall i, k :: 0 <= i < |table| && 0 <= k < |Forms(table[i])| ==> |Forms(table[i])[k]| > 0
  }

  /** The outer loop over the table, on already lower-cased text. The result is never
      upper-case, text holding no form of any entry is left exactly as it is, and a
      well-formed table never empties a non-empty text. */
  function ApplyTable(s: string, table: seq<Variation>): (r: string)
    decreases |table|
    ensures NoUpper(s) ==> NoUpper(r)
    ensures Untouched(s, table) ==> r == s
    ensures |s| > 0 && WellFormedTable(table) ==> |r| > 0
  {
    if table == [] then s
    else
      assert Untouched(s, table) ==> forall k :: 0 <= k < |Forms(table[0])| ==> !Contains(s, Lower(Forms(table[0])[k]));
      assert WellFormedTable(table) ==> forall k :: 0 <= k < |Forms(table[0])| ==> |Forms(table[0])[k]| > 0;
      var next := ApplyVariation(s, table[0]);
      assert Untouched(s, table) ==> next == s;
      ApplyTable(next, table[1..])
  }

  /** `normalize_text` over an arbitrary variant table. */
  function NormalizeWith(table: seq<Variation>, text: string): (r: string)
    ensures NoUpper(r)
    ensures Untouched(Lower(text), table) ==> r == Lower(text)
    ensures |text| > 0 && WellFormedTable(table) ==> |r| > 0
  {
    ApplyTable(Lower(text), table)
  }

  /** `normalize_text` with the source's variant table. */
  function Normalize(text: string): string
  {
    NormalizeWith(KeywordVariations, text)
  }

  /** Running the table in two pieces is running it whole: the rewrite is a left-to-right
      pipeline of entries. */
  lemma {:induction false} ApplyTableSplit(s: string, t1: seq<Variation>, t2: seq<Variation>)
    decreases |t1|
    ensures ApplyTable(s, t1 + t2) == ApplyTable(ApplyTable(s, t1), t2)
  {
    if t1 != [] {
      assert (t1 + t2)[1..] == t1[1..] + t2;
      ApplyTableSplit(ApplyVariation(s, t1[0]), t1[1..], t2);
    } else {
      assert t1 + t2 == t2;
    }
  }

  lemma WellFormedConcat(t1: seq<Variation>, t2: seq<Variation>)
    requires WellFormedTable(t1) && WellFormedTable(t2)
    ensures WellFormedTable(t1 + t2)
  {
    forall i, k | 0 <= i < |t1 + t2| && 0 <= k < |Forms((t1 + t2)[i])|
      ensures |Forms((t1 + t2)[i])[k]| > 0
    {
      if i >= |t1| {
        assert (t1 + t2)[i] == t2[i - |t1|];
      }
    }
  }

  /** The source's variant table has no empty canonical form and no empty variant. */
  lemma KeywordVariationsWellFormed()
    ensures WellFormedTable(KeywordVariations)
  {
    ChunkAWellFormed();
    ChunkBWellFormed();
    ChunkCWellFormed();
    ChunkDWellFormed();
    WellFormedConcat(VariationsA, VariationsB);
    WellFormedConcat(VariationsA + VariationsB, VariationsC);
    WellFormedConcat(VariationsA + VariationsB + VariationsC, VariationsD);
  }

  lemma ChunkAWellFormed()
    ensures WellFormedTable(VariationsA)
  {
  }

  lemma ChunkBWellFormed()
    ensures WellFormedTable(VariationsB)
  {
  }

  lemma ChunkCWellFormed()
    ensures WellFormedTable(VariationsC)
  {
  }

  lemma ChunkDWellFormed()
    ensures WellFormedTable(VariationsD)
  {
  }

  /** With a well-formed table the empty text normalises to the empty text. */
  lemma NormalizeEmpty(table: seq<Variation>)
    requires WellFormedTable(table)
    ensures NormalizeWith(table, "") == ""
  {
    forall i, k | 0 <= i < |table| && 0 <= k < |Forms(table[i])|
      ensures !Contains("", Lower(Forms(table[i])[k]))
    {
      NotContainedInEmpty(Lower(Forms(table[i])[k]));
    }
  }
}

=== FILE: sequences.dfy ===
/** Order-preserving selection from a sequence, the shape shared by the segment
    localisation loop and the visual alert filter. */
module Sequences {

  /** `a` can be obtained from `b` by deleting elements, keeping the order of the rest. */
  ghost predicate IsSubsequence<T>(a: seq<T>, b: seq<T>)
    decreases |b|
  {
    a == [] || (b != [] && ((a[0] == b[0] && IsSubsequence(a[1..], b[1..])) || IsSubsequence(a, b[1..])))
  }

  /** Number of elements of `s` that satisfy `keep`. */
  function CountWhere<T>(s: seq<T>, keep: T -> bool): nat
  {
    if s == [] then 0 else (if keep(s[0]) then 1 else 0) + CountWhere(s[1..], keep)
  }

  /** The elements of `s` that satisfy `keep`, in their original order: exactly those
      elements, each as often as it is kept. */
  function Filter<T>(s: seq<T>, keep: T -> bool): (r: seq<T>)
    ensures forall i :: 0 <= i < |r| ==> r[i] in s && keep(r[i])
    ensures forall i :: 0 <= i < |s| && keep(s[i]) ==> s[i] in r
    ensures IsSubsequence(r, s)
    ensures |r| == CountWhere(s, keep)
  {
    if s == [] then []
    else if keep(s[0]) then
      var rest := Filter(s[1..], keep);
      assert ([s[0]] + rest)[1..] == rest;
      [s[0]] + rest
    else
      Filter(s[1..], keep)
  }

  /** A subsequence is never longer than the sequence it is taken from. */
  lemma {:induction false} SubsequenceLength<T>(a: seq<T>, b: seq<T>)
    requires IsSubsequence(a, b)
    ensures |a| <= |b|
    decreases |b|
  {
    if a != [] {
      if a[0] == b[0] && IsSubsequence(a[1..], b[1..]) {
        SubsequenceLength(a[1..], b[1..]);
      } else {
        SubsequenceLength(a, b[1..]);
      }
    }
  }
}

=== FILE: strings.dfy ===
/** Python string operations the compliance engine relies on, as pure functions on
    `seq<char>`: substring membership (`p in s`), `str.find`, `str.replace`,
    ASCII `str.lower` and `sep.join`. */
module Strings {

  /** `p` occurs in `s` at offset `i`. */
  ghost predicate OccursAt(s: string, p: string, i: int) {
    0 <= i && i + |p| <= |s| && s[i..i + |p|] == p
  }

  predicate IsPrefix(p: string, s: string) {
    |p| <= |s| && s[..|p|] == p
  }

  /** Python's `p in s`, computed by scanning offsets left to right. */
  predicate Contains(s: string, p: string)
    decreases |s|
  {
    IsPrefix(p, s) || (|s| > 0 && Contains(s[1..], p))
  }

  /** The scan agrees with the positional definition of a substring, in both directions. */
  lemma {:induction false} ContainsIff(s: string, p: string)
    ensures Contains(s, p) <==> exists i :: OccursAt(s, p, i)
    decreases |s|
  {
    if IsPrefix(p, s) {
      assert OccursAt(s, p, 0);
    } else if |s| == 0 {
      assert |p| > 0;
    } else {
      ContainsIff(s[1..], p);
      if i :| OccursAt(s[1..], p, i) {
        assert s[1..][i..i + |p|] == s[i + 1..i + 1 + |p|];
        assert OccursAt(s, p, i + 1);
      }
      if i :| OccursAt(s, p, i) {
        assert i != 0;
        assert s[1..][i - 1..i - 1 + |p|] == s[i..i + |p|];
        assert OccursAt(s[1..], p, i - 1);
      }
    }
  }

  /** Every string contains itself (`k in k` in Python). */
  lemma ContainsSelf(s: string)
    ensures Contains(s, s)
  {
    assert IsPrefix(s, s);
  }

  /** A string contains whatever is written inside it. */
  lemma ContainsInfix(a: string, p: string, b: string)
    ensures Contains(a + p + b, p)
  {
    var s := a + p + b;
    assert s[|a|..|a| + |p|] == p;
    assert OccursAt(s, p, |a|);
    ContainsIff(s, p);
  }

  /** Nothing non-empty occurs in the empty string. */
  lemma NotContainedInEmpty(p: string)
    requires |p| > 0
    ensures !Contains([], p)
  {
  }

  /** Python's `s.find(c, start)` for a one-character needle: the first index at or after
      `start` holding `c`, or -1. */
  function Find(s: string, c: char, start: nat): (r: int)
    ensures r == -1 || (start <= r < |s| && s[r] == c)
    ensures forall i :: start <= i < |s| && (r == -1 || i < r) ==> s[i] != c
    decreases |s| - start
  {
    if start >= |s| then -1
    else if s[start] == c then start
    else Find(s, c, start + 1)
  }

  function CountChar(s: string, c: char): nat
  {
    if s == [] then 0 else (if s[0] == c then 1 else 0) + CountChar(s[1..], c)
  }

  lemma {:induction false} CountCharAppend(a: string, b: string, c: char)
    ensures CountChar(a + b, c) == CountChar(a, c) + CountChar(b, c)
  {
    if a != [] {
      CountCharAppend(a[1..], b, c);
      assert (a + b)[1..] == a[1..] + b;
      assert (a + b)[0] == a[0];
    } else {
      assert a + b == b;
    }
  }

  lemma {:induction false} CountCharZero(s: string, c: char)
    ensures CountChar(s, c) == 0 <==> forall i :: 0 <= i < |s| ==> s[i] != c
  {
    if s != [] {
      CountCharZero(s[1..], c);
      assert forall i :: 0 < i < |s| ==> s[i] == s[1..][i - 1];
    }
  }

  /** Python's `s.replace(p, r)` for an empty `p`: `r` before every character and at the end. */
  function Interleave(s: string, r: string): string
  {
    if s == [] then r else r + [s[0]] + Interleave(s[1..], r)
  }

  predicate IsUpper(c: char) { 'A' <= c <= 'Z' }

  /** No ASCII upper-case letter occurs in `s`. */
  predicate NoUpper(s: string) {
    forall i :: 0 <= i < |s| ==> !IsUpper(s[i])
  }

  lemma NoUpperAppend(a: string, b: string)
    ensures NoUpper(a) && NoUpper(b) ==> NoUpper(a + b)
  {
    assert forall i :: 0 <= i < |a + b| ==> (a + b)[i] == if i < |a| then a[i] else b[i - |a|];
  }

  lemma {:induction false} InterleaveNoUpper(s: string, r: string)
    ensures NoUpper(s) && NoUpper(r) ==> NoUpper(Interleave(s, r))
  {
    if s != [] && NoUpper(s) && NoUpper(r) {
      assert NoUpper(s[1..]) && NoUpper([s[0]]);
      InterleaveNoUpper(s[1..], r);
      NoUpperAppend(r, [s[0]]);
      NoUpperAppend(r + [s[0]], Interleave(s[1..], r));
    }
  }

  /** Python's `s.replace(pat, rep)`: scans left to right and replaces every
      non-overlapping occurrence of `pat`. A string without `pat` comes back unchanged,
      replacing a pattern by itself changes nothing, and the replacement cannot
      introduce an upper-case letter that neither `s` nor `rep` had. */
  function ReplaceAll(s: string, pat: string, rep: string): (r: string)
    ensures |pat| > 0 && !Contains(s, pat) ==> r == s
    ensures pat == rep ==> r == s
    ensures NoUpper(s) && NoUpper(rep) ==> NoUpper(r)
    ensures |pat| > 0 && |s| > 0 && |rep| > 0 ==> |r| > 0
    decreases |s|
  {
    if pat == [] then
      InterleaveSelf(s);
      InterleaveNoUpper(s, rep);
      Interleave(s, rep)
    else if s == [] then []
    else if IsPrefix(pat, s) then
      var tail := ReplaceAll(s[|pat|..], pat, rep);
      NoUpperAppend(rep, tail);
      assert pat == rep ==> s == pat + s[|pat|..];
      rep + tail
    else
      var tail := ReplaceAll(s[1..], pat, rep);
      NoUpperAppend([s[0]], tail);
      assert s == [s[0]] + s[1..];
      [s[0]] + tail
  }

  /** An occurrence at the front is replaced and the scan resumes after it. */
  lemma ReplaceAtFront(pat: string, t: string, rep: string)
    requires |pat| > 0
    ensures ReplaceAll(pat + t, pat, rep) == rep + ReplaceAll(t, pat, rep)
  {
    assert IsPrefix(pat, pat + t);
    assert (pat + t)[|pat|..] == t;
  }

  /** The first occurrence of `pat` is replaced: the text before it is kept, `rep` takes its
      place, and the scan resumes right after it. So the result holds `rep`. */
  lemma ReplaceFirstOccurrence(s: string, pat: string, rep: string, i: nat)
    requires |pat| > 0 && FirstOccurrence(s, pat, i)
    ensures ReplaceAll(s, pat, rep) == s[..i] + rep + ReplaceAll(s[i + |pat|..], pat, rep)
  {
    ReplacedFirst(s, pat, rep, i);
  }

  lemma {:induction false} ReplacedFirst(s: string, pat: string, rep: string, i: nat)
    requires |pat| > 0 && FirstOccurrence(s, pat, i)
    ensures ReplacedAt(s, pat, rep, i)
    decreases i, 1
  {
    if i == 0 {
      OccursShift(s, pat, 0);
      ReplaceAtStart(s, pat, rep);
    } else {
      ReplaceLaterOccurrence(s, pat, rep, i);
    }
  }

  /** A first occurrence after the front: the first character is kept and the scan goes on
      in `s[1..]`. */
  lemma {:induction false} ReplaceLaterOccurrence(s: string, pat: string, rep: string, i: nat)
    requires 0 < i && |pat| > 0 && FirstOccurrence(s, pat, i)
    ensures ReplacedAt(s, pat, rep, i)
    decreases i, 0
  {
    ShiftOccurrences(s, pat, i);
    ReplacedFirst(s[1..], pat, rep, i - 1);
    ReplaceStepBack(s, pat, rep, i);
  }

  /** Replacing `pat` in `s` keeps the text before offset `i`, writes `rep`, and resumes
      the scan after the occurrence at `i`. */
  ghost predicate ReplacedAt(s: string, pat: string, rep: string, i: nat)
    requires i + |pat| <= |s|
  {
    ReplaceAll(s, pat, rep) == s[..i] + rep + ReplaceAll(s[i + |pat|..], pat, rep)
  }

  /** `i` is the offset of the first occurrence of `p` in `s`. */
  ghost predicate FirstOccurrence(s: string, p: string, i: nat)
  {
    OccursAt(s, p, i) && forall j :: 0 <= j < i ==> !OccursAt(s, p, j)
  }

  /** A string that contains `p` has a first occurrence of it. */
  lemma {:induction false} FirstIndex(s: string, p: string) returns (i: nat)
    requires Contains(s, p)
    ensures FirstOccurrence(s, p, i)
    decreases |s|
  {
    OccursShift(s, p, 0);
    if IsPrefix(p, s) {
      i := 0;
    } else {
      var k := FirstIndex(s[1..], p);
      i := k + 1;
      OccursShift(s, p, i);
      forall j | 0 < j < i
        ensures !OccursAt(s, p, j)
      {
        OccursShift(s, p, j);
      }
    }
  }

  /** Whenever the pattern occurs, the replacement shows up in the result. */
  lemma ReplaceInserts(s: string, pat: string, rep: string)
    requires |pat| > 0 && Contains(s, pat)
    ensures Contains(ReplaceAll(s, pat, rep), rep)
  {
    var i := FirstIndex(s, pat);
    ReplaceFirstOccurrence(s, pat, rep, i);
    ContainsInfix(s[..i], rep, ReplaceAll(s[i + |pat|..], pat, rep));
  }

  lemma ReplaceAtStart(s: string, pat: string, rep: string)
    requires |pat| > 0 && IsPrefix(pat, s)
    ensures ReplaceAll(s, pat, rep) == s[..0] + rep + ReplaceAll(s[|pat|..], pat, rep)
  {
    assert s[..0] + rep == rep;
  }

  /** Moving the scan on by one character moves the first occurrence with it. */
  lemma ShiftOccurrences(s: string, pat: string, i: nat)
    requires 0 < i && FirstOccurrence(s, pat, i)
    ensures !IsPrefix(pat, s) && FirstOccurrence(s[1..], pat, i - 1)
  {
    OccursShift(s, pat, 0);
    OccursShift(s, pat, i);
    forall j | 0 <= j < i - 1
      ensures !OccursAt(s[1..], pat, j)
    {
      OccursShift(s, pat, j + 1);
    }
  }

  /** The replacement in `s[1..]` carries over to `s` behind its kept first character. */
  lemma ReplaceStepBack(s: string, pat: string, rep: string, i: nat)
    requires 0 < i && |pat| > 0 && i + |pat| <= |s| && !IsPrefix(pat, s)
    requires ReplacedAt(s[1..], pat, rep, i - 1)
    ensures ReplacedAt(s, pat, rep, i)
  {
    assert s[1..][i - 1 + |pat|..] == s[i + |pat|..];
    ReplaceNotAtFront(s, pat, rep);
    PrependFront(s, i, rep, ReplaceAll(s[i + |pat|..], pat, rep));
  }

  lemma PrependFront(s: string, i: nat, rep: string, tail: string)
    requires 0 < i <= |s|
    ensures [s[0]] + (s[1..][..i - 1] + rep + tail) == s[..i] + rep + tail
  {
    assert s[..i] == [s[0]] + s[1..][..i - 1];
  }

  /** Occurrences in `s[1..]` are those of `s` moved one to the left. */
  lemma OccursShift(s: string, p: string, j: nat)
    ensures |s| > 0 && j > 0 ==> (OccursAt(s[1..], p, j - 1) <==> OccursAt(s, p, j))
    ensures j == 0 ==> (OccursAt(s, p, 0) <==> IsPrefix(p, s))
  {
    if |s| > 0 && j > 0 && j + |p| <= |s| {
      assert s[1..][j - 1..j - 1 + |p|] == s[j..j + |p|];
    }
    if j == 0 && |p| <= |s| {
      assert s[0..|p|] == s[..|p|];
    }
  }

  /** A text that does not start with the pattern keeps its first character. */
  lemma ReplaceNotAtFront(s: string, pat: string, rep: string)
    requires |pat| > 0 && |s| > 0 && !IsPrefix(pat, s)
    ensures ReplaceAll(s, pat, rep) == [s[0]] + ReplaceAll(s[1..], pat, rep)
  {
  }

  /** A first character that does not start an occurrence is kept and the scan moves on. */
  lemma ReplaceSkipsFront(c: char, t: string, pat: string, rep: string)
    requires |pat| > 0 && pat[0] != c
    ensures ReplaceAll([c] + t, pat, rep) == [c] + ReplaceAll(t, pat, rep)
  {
    assert ([c] + t)[1..] == t;
  }

  /** A pattern one of whose characters is missing from `s` does not occur in `s`. */
  lemma {:induction false} MissingChar(s: string, p: string, k: nat)
    requires k < |p| && Excludes(s, p[k])
    ensures !Contains(s, p)
    decreases |s|
  {
    if |s| > 0 {
      assert Excludes(s[1..], p[k]);
      MissingChar(s[1..], p, k);
    }
  }

  /** Lower-casing leaves a string without upper-case letters alone. */
  lemma LowerIdentity(s: string)
    requires NoUpper(s)
    ensures Lower(s) == s
  {
    LowerFixpoint(s);
  }

  /** With an empty pattern, `s.replace('', '')` is `s`. */
  lemma {:induction false} InterleaveSelf(s: string)
    ensures Interleave(s, []) == s
  {
    if s != [] {
      InterleaveSelf(s[1..]);
      assert s == [s[0]] + s[1..];
    }
  }

  function LowerChar(c: char): (d: char)
  {
    if IsUpper(c) then (c as int + 32) as char else c
  }

  /** ASCII `str.lower()`: upper-case letters become lower-case, everything else stays. */
  function Lower(s: string): (r: string)
    ensures |r| == |s|
    ensures forall i :: 0 <= i < |s| ==> r[i] == LowerChar(s[i])
    ensures NoUpper(r)
  {
    seq(|s|, i requires 0 <= i < |s| => LowerChar(s[i]))
  }

  /** Lower-casing a string that has no upper-case letter is the identity, and only then. */
  lemma LowerFixpoint(s: string)
    ensures Lower(s) == s <==> NoUpper(s)
  {
    if Lower(s) == s {
      assert forall i :: 0 <= i < |s| ==> s[i] == Lower(s)[i];
    }
  }

  /** `sep.join(parts)`. */
  function Join(parts: seq<string>, sep: string): string
  {
    if parts == [] then []
    else if |parts| == 1 then parts[0]
    else parts[0] + sep + Join(parts[1..], sep)
  }

  /** Splits `s` at every occurrence of the character `sep` (Python's `s.split(sep)`). */
  function Split(s: string, sep: char): (r: seq<string>)
    ensures |r| > 0
  {
    if s == [] then [[]]
    else
      var rest := Split(s[1..], sep);
      if s[0] == sep then [[]] + rest
      else [[s[0]] + rest[0]] + rest[1..]
  }

  predicate Excludes(s: string, c: char) {
    forall i :: 0 <= i < |s| ==> s[i] != c
  }

  /** Splitting a part that holds no separator, followed by more text, cuts right after the part. */
  lemma {:induction false} SplitAfterPart(part: string, sep: char, rest: string)
    requires Excludes(part, sep)
    ensures Split(part + [sep] + rest, sep) == [part] + Split(rest, sep)
    ensures Split(part, sep) == [part]
    decreases |part|
  {
    if part == [] {
      assert [] + [sep] + rest == [sep] + rest;
      assert ([sep] + rest)[1..] == rest;
    } else {
      SplitAfterPart(part[1..], sep, rest);
      assert (part + [sep] + rest)[1..] == part[1..] + [sep] + rest;
      assert [part[0]] + part[1..] == part;
    }
  }

  /** Joining with a one-character separator that no part contains is undone by splitting
      on that character. */
  lemma {:induction false} SplitJoin(parts: seq<string>, sep: char)
    requires |parts| > 0
    requires forall k :: 0 <= k < |parts| ==> Excludes(parts[k], sep)
    ensures Split(Join(parts, [sep]), sep) == parts
  {
    if |parts| == 1 {
      SplitAfterPart(parts[0], sep, []);
    } else {
      SplitJoin(parts[1..], sep);
      SplitAfterPart(parts[0], sep, Join(parts[1..], [sep]));
      assert parts == [parts[0]] + parts[1..];
    }
  }

  /** A sequence with no element is empty. */
  lemma NoElementEmpty<T>(s: seq<T>)
    ensures (forall x :: x !in s) ==> s == []
  {
    if s != [] {
      assert s[0] in s;
    }
  }

  /** `Find` stops at the first occurrence at or after `start`. */
  lemma FindAt(s: string, c: char, start: nat, k: nat)
    requires start <= k < |s| && s[k] == c
    requires forall i :: start <= i < k ==> s[i] != c
    ensures Find(s, c, start) == k
  {
  }

  /** `Find` and counting agree: no occurrence from `start` on means none counted, and an
      occurrence found accounts for exactly one of those counted. */
  lemma {:induction false} FindCount(s: string, c: char, start: nat)
    requires start <= |s|
    ensures Find(s, c, start) == -1 ==> CountChar(s[start..], c) == 0
    ensures Find(s, c, start) != -1 ==> CountChar(s[start..], c) == 1 + CountChar(s[Find(s, c, start) + 1..], c)
    decreases |s| - start
  {
    if start < |s| {
      assert s[start..][1..] == s[start + 1..];
      if s[start] != c {
        FindCount(s, c, start + 1);
      }
    }
  }

  lemma ExcludesAppend(a: string, b: string, c: char)
    ensures Excludes(a, c) && Excludes(b, c) ==> Excludes(a + b, c)
  {
    assert forall i :: 0 <= i < |a + b| ==> (a + b)[i] == if i < |a| then a[i] else b[i - |a|];
  }

  /** A replacement text already present survives replacing any non-empty pattern by it:
      either nothing is replaced, or the replacement is written in. */
  lemma ReplaceKeeps(s: string, pat: string, rep: string)
    requires |pat| > 0 && Contains(s, rep)
    ensures Contains(ReplaceAll(s, pat, rep), rep)
  {
    if Contains(s, pat) {
      ReplaceInserts(s, pat, rep);
    }
  }
}

=== FILE: transcript.dfy ===
/** The caption branch of `get_video_transcription` (checker.py:248-263): every caption entry
    becomes a segment carrying its text, its start second and a `m:ss` timestamp, and the
    transcript text is the segment texts joined by single spaces. The caption service and
    the speech-recognition fallback are collaborators outside this model; a transcript is
    either captioned (with segments) or recognised from speech (without). */
module Transcript {
  import opened Wrappers
  import opened Strings

  /** A caption entry as the caption service delivers it; `start` is already truncated to
      whole seconds (`int(entry['start'])`). */
  datatype CaptionEntry = CaptionEntry(text: string, start: nat)

  /** A timed transcript segment: text, formatted time and start second. */
  datatype Segment = Segment(text: string, time: string, start: nat)

  /** Where the transcript text came from (`'字幕'` or `'音声認識'`). */
  datatype Provenance = Captions | SpeechRecognition

  /** What `get_video_transcription` returns on success. */
  datatype TranscriptResult = TranscriptResult(text: string, source: Provenance, segments: Option<seq<Segment>>)

  // ---------------------------------------------------------------------------
  // Decimal digits.

  function DigitChar(d: nat): char
    requires d < 10
  {
    ('0' as int + d) as char
  }

  predicate IsDigit(c: char) { '0' <= c <= '9' }

  function DigitValue(c: char): nat
    requires IsDigit(c)
  {
    c as int - '0' as int
  }

  predicate AllDigits(s: string) { forall i :: 0 <= i < |s| ==> IsDigit(s[i]) }

  /** Python's `str(n)` for a natural number: no leading zero except for 0 itself. */
  function DecimalString(n: nat): (r: string)
    ensures |r| > 0 && AllDigits(r)
    ensures r[0] == '0' ==> r == "0"
    ensures n == 0 ==> r == "0"
  {
    if n < 10 then [DigitChar(n)] else DecimalString(n / 10) + [DigitChar(n % 10)]
  }

  /** The value of a string of decimal digits. */
  function DigitsValue(s: string): nat
    requires AllDigits(s)
  {
    if s == [] then 0 else 10 * DigitsValue(s[..|s| - 1]) + DigitValue(s[|s| - 1])
  }

  /** Reading back a decimal string gives the number. */
  lemma {:induction false} DecimalRoundTrip(n: nat)
    ensures DigitsValue(DecimalString(n)) == n
  {
    if n >= 10 {
      DecimalRoundTrip(n / 10);
      var s := DecimalString(n);
      assert s[..|s| - 1] == DecimalString(n / 10);
    }
  }

  // ---------------------------------------------------------------------------
  // Timestamps.

  /** `f"{s // 60}:{s % 60:02d}"` (checker.py:251-255). */
  function FormatTime(start: nat): (r: string)
    ensures |r| >= 4 && r[|r| - 3] == ':'
    ensures AllDigits(r[..|r| - 3]) && AllDigits(r[|r| - 2..])
    ensures DigitsValue(r[|r| - 2..]) < 60
    ensures r[0] == '0' ==> start < 60
    ensures start < 60 <==> r[..|r| - 3] == "0"
  {
    var minutes := DecimalString(start / 60);
    var seconds := start % 60;
    var r := minutes + [':', DigitChar(seconds / 10), DigitChar(seconds % 10)];
    assert r[..|r| - 3] == minutes;
    assert r[|r| - 2..] == [DigitChar(seconds / 10), DigitChar(seconds % 10)];
    TwoDigitsValue(seconds / 10, seconds % 10);
    r
  }

  lemma TwoDigitsValue(a: nat, b: nat)
    requires a < 10 && b < 10
    ensures DigitsValue([DigitChar(a), DigitChar(b)]) == 10 * a + b
  {
    var one := [DigitChar(a)];
    var two := [DigitChar(a), DigitChar(b)];
    assert one[..0] == [];
    assert DigitsValue(one) == DigitValue(DigitChar(a)) == a;
    assert two[..1] == one;
    assert DigitValue(DigitChar(b)) == b;
  }

  /** Reads an `m:ss` timestamp back into seconds; `None` for anything else. */
  function ParseTime(t: string): Option<nat>
  {
    if |t| >= 4 && t[|t| - 3] == ':' && AllDigits(t[..|t| - 3]) && AllDigits(t[|t| - 2..])
       && DigitsValue(t[|t| - 2..]) < 60
    then Some(60 * DigitsValue(t[..|t| - 3]) + DigitsValue(t[|t| - 2..]))
    else None
  }

  /** A formatted timestamp reads back as the start second it was made from: minutes and
      zero-padded seconds together lose nothing. */
  lemma TimeRoundTrip(start: nat)
    ensures ParseTime(FormatTime(start)) == Some(start)
  {
    var minutes := DecimalString(start / 60);
    var seconds := start % 60;
    var r := FormatTime(start);
    assert r[..|r| - 3] == minutes;
    assert r[|r| - 2..] == [DigitChar(seconds / 10), DigitChar(seconds % 10)];
    DecimalRoundTrip(start / 60);
    TwoDigitsValue(seconds / 10, seconds % 10);
  }

  /** The example of a caption at 65 seconds. */
  lemma SixtyFiveSeconds()
    ensures FormatTime(65) == "1:05"
  {
  }

  // ---------------------------------------------------------------------------
  // Segments and transcript text.

  /** The segment list of checker.py:249-257: one segment per caption entry, in order, each
      keeping its text and start second and carrying a timestamp that reads back as that
      start second. */
  function BuildSegments(entries: seq<CaptionEntry>): (r: seq<Segment>)
    ensures |r| == |entries|
    ensures forall i :: 0 <= i < |r| ==>
              r[i].text == entries[i].text && r[i].start == entries[i].start
              && r[i].time == FormatTime(entries[i].start) && ParseTime(r[i].time) == Some(entries[i].start)
  {
    if entries == [] then []
    else
      TimeRoundTrip(entries[0].start);
      [Segment(entries[0].text, FormatTime(entries[0].start), entries[0].start)] + BuildSegments(entries[1..])
  }

  function Texts(segments: seq<Segment>): (r: seq<string>)
    ensures |r| == |segments|
    ensures forall i :: 0 <= i < |r| ==> r[i] == segments[i].text
  {
    if segments == [] then [] else [segments[0].text] + Texts(segments[1..])
  }

  /** The captioned transcript of checker.py:259-263. Its text splits back on spaces into the
      caption texts when those hold no space themselves, and it always carries segments. */
  function CaptionTranscript(entries: seq<CaptionEntry>): (r: TranscriptResult)
    ensures r.source == Captions && r.segments.Some?
    ensures |r.segments.value| == |entries|
    ensures r.text == Join(CaptionTexts(entries), " ")
    ensures entries == [] ==> r.text == ""
    ensures |entries| > 0 && (forall i :: 0 <= i < |entries| ==> Excludes(entries[i].text, ' ')) ==>
              Split(r.text, ' ') == CaptionTexts(entries)
  {
    var segments := BuildSegments(entries);
    SegmentTexts(entries);
    CaptionTextSplits(entries);
    TranscriptResult(Join(Texts(segments), " "), Captions, Some(segments))
  }

  lemma CaptionTextSplits(entries: seq<CaptionEntry>)
    ensures |entries| > 0 && (forall i :: 0 <= i < |entries| ==> Excludes(entries[i].text, ' ')) ==>
              Split(Join(Texts(BuildSegments(entries)), " "), ' ') == CaptionTexts(entries)
  {
    SegmentTexts(entries);
    if |entries| > 0 && (forall i :: 0 <= i < |entries| ==> Excludes(entries[i].text, ' ')) {
      SplitJoin(CaptionTexts(entries), ' ');
    }
  }

  /** The caption texts, in order. */
  function CaptionTexts(entries: seq<CaptionEntry>): (r: seq<string>)
    ensures |r| == |entries| && forall i :: 0 <= i < |r| ==> r[i] == entries[i].text
  {
    seq(|entries|, i requires 0 <= i < |entries| => entries[i].text)
  }

  /** The segments keep the caption texts. */
  lemma SegmentTexts(entries: seq<CaptionEntry>)
    ensures Texts(BuildSegments(entries)) == CaptionTexts(entries)
  {
    var texts := Texts(BuildSegments(entries));
    assert forall i :: 0 <= i < |texts| ==> texts[i] == CaptionTexts(entries)[i];
  }

  /** The speech-recognition transcript of checker.py:291-294: text only, no timing. */
  function SpeechTranscript(text: string): (r: TranscriptResult)
    ensures r.text == text && r.source == SpeechRecognition && r.segments.None?
  {
    TranscriptResult(text, SpeechRecognition, None)
  }
}

=== FILE: wrappers.dfy ===
/** Optional values, for inputs the source reads with a default (`dict.get`) and for
    results that may be absent; and results that may instead be an error. */
module Wrappers {

  datatype Option<+T> = None | Some(value: T)

  datatype Result<+T, +E> = Success(value: T) | Failure(error: E)
}
